=== FILE: README.md ===
# Bitcoin rich-list change tracker — a Dafny model of its pure core

The repository scrapes the "top 100 richest Bitcoin addresses" table on a
timer (main.py every hour, main2.py every minute), stores each capture under
its capture time (main.py straight into SQLite, main2.py as CSV files that
SQlite_start.py later imports), and reports which addresses changed their
transaction counts (`ins`, `outs`) between captures. This project models the parts of it that are pure logic:

- **`compare_data`** (identical in main.py and lekerdezes.py): the positional
  diff of two rank-ordered snapshots (module `Snapshot`).
- **The two report strategies** over an abstract store, i.e. a map from
  capture time (integer seconds) to the rank-ordered rows of that capture
  (module `Report`):
  - `generate_report` of main.py pairs each capture time with the next one
    (module `Adjacent`).
  - `main` of lekerdezes.py walks from the earliest capture time in fixed
    three-hour steps and pairs each visited time `t` with `t + 3h` (module
    `FixedOffset`).
  - Module `Render` writes the HTML fragment and the console lines with the
    program's own Hungarian labels.
- **The field extractors of SQlite_start.py**: `extract_ins_outs`,
  `extract_btc_amount`, `extract_usd_amount`, `extract_wallet_name`
  (module `Extractors`) and `extract_timestamp_from_filename` (module
  `FilenameTimestamp`).
  - Each regex search is a leftmost-match scanner (`Chars.Leftmost`).
  - A lemma ties each scanner to the pattern's own semantics, including the
    splits backtracking could try.

Python's `None` is `Option.None`, so `None != None` is false and `None != x`
is true, as in the source. An exception is `Result.Failure(ValueError)`.
Module `Scenarios` states the model's result on concrete inputs, proved from
the contracts.

Two behaviours of the code are easy to misread, and the model keeps them:

- `extract_btc_amount("1,234.00 BTC")` yields 0, not 1234. The leftmost
  `[\d,]+\s*BTC` match is `00`, because a run stopped by `.` cannot be
  followed by `BTC`.
- `compare_data` does not skip snapshots of different lengths. `zip` pairs
  the common prefix, and the rows past the shorter list are ignored.

## Model

| member | source | states |
|---|---|---|
| Snapshot.CompareData | main.py:22-35 | at most `min(len(prev), len(curr))` records, and every record's two sides really differ in `ins` or `outs` |
| Snapshot.ChangedPositions | main.py:24-25 | reference definition: the ascending positions below `n` whose pair differs in `ins` or `outs`, and exactly those |
| Snapshot.CompareDataSpec | main.py:23-35 | the diff is the in-order filter of the zipped pairs: one record per changed position, in position order, with rank, address and wallet from `curr` and both sides' `ins`/`outs` |
| Snapshot.ComparePrefixIsChangesAt | main.py:24-34 | the diff of the first `n` pairs equals the reference filter over positions below `n` |
| Snapshot.CompareDataMembership | main.py:25 | position `i` gets a record iff `ins` or `outs` differ there; rank, address or wallet alone never produce one |
| Snapshot.CompareDataEmptyIff | main.py:25 | the diff is empty iff the lists agree on `ins` and `outs` at every paired position |
| Snapshot.CompareDataIgnoresTail | main.py:24 | rows beyond the shorter list never influence the result |
| Snapshot.CompareDataIgnoresPrevIdentity | main.py:25-34 | the earlier snapshot contributes only its `ins`/`outs`; its rank, address and wallet are never read |
| Snapshot.CompareDataSnoc | main.py:24-34 | one more zipped pair appends its record exactly when it differs |
| Snapshot.CompareDataLoop | lekerdezes.py:13-26 | the imperative `for` loop that appends to `changes` computes the same diff |
| Report.LookupSelects | main.py:13-20 | on a store the table can produce, `get_data_for_timestamp` returns rows iff the time is a capture time, and returns them in rank order |
| Report.CapturedPairReportable | main.py:50-56 | between two capture times the `prev_data and curr_data` guard always passes, so the pair is reported iff the diff is non-empty |
| Report.ReportPairs | main.py:46-57 | no more sections than pairs; every section comes from one of the pairs, whose snapshots are both non-empty with a non-empty diff; every such pair yields its section |
| Report.ReportedBlocksShowChanges | main.py:60-63 | every block renders one diff record: the INS line iff `ins` changed, the OUTS line iff `outs` changed, so at least one of them |
| Report.ReportPairsOrdered | main.py:46-57 | pairs in ascending order of their first time give sections in ascending order |
| Report.ReportPairsReadsOnlyEnds | main.py:50-51 | only the snapshots at the two ends of each pair are read |
| Report.ReportPairsAppend | main.py:46-65 | the report over concatenated pair lists is the concatenation of the reports |
| Report.ReportPairsSnoc | main.py:46-65 | one more loop iteration appends at most the section of its pair |
| Report.ReportPair | lekerdezes.py:42-57 | one loop body: reads both snapshots, writes the pair's section iff both are non-empty and the diff is non-empty |
| Timeline.SortedKeys | main.py:41-42 | `SELECT DISTINCT timestamp ... ORDER BY timestamp`: the capture times, each once, strictly ascending |
| Timeline.MinOf | lekerdezes.py:33 | `MIN(timestamp)`: a capture time that no other capture time precedes |
| Timeline.AscendingIndexOrder | main.py:41 | in the ordered list, an earlier time sits at an earlier index and conversely |
| Adjacent.AdjacentPairsOfAscending | main.py:46-48 | the pairs `(ts[i-1], ts[i])` of an ascending list are exactly its consecutive elements |
| Adjacent.AdjacentPairsAreConsecutive | main.py:41-48 | a pair is formed iff both are capture times and no capture time lies strictly between them |
| Adjacent.GenerateReport | main.py:41-65 | every section compares two capture times, the earlier first; fewer sections than capture times |
| Adjacent.GenerateReportSound | main.py:46-57 | every section compares two consecutive capture times with non-empty snapshots and a non-empty diff |
| Adjacent.GenerateReportComplete | main.py:46-57 | every consecutive pair with non-empty snapshots and a non-empty diff gets its section |
| Adjacent.GenerateReportAscending | main.py:46-57 | sections appear in ascending time order |
| Adjacent.GenerateReportSize | main.py:46 | fewer than two capture times give no section; otherwise there are fewer sections than capture times |
| Adjacent.GenerateReportLoop | main.py:46-57 | the imperative loop over `range(1, len(timestamps))` computes the same sections |
| FixedOffset.GridPairs | lekerdezes.py:39-40 | the visited times are `current + k*3h`, each at most the end time, each paired with exactly three hours later; the next step would pass the end; nothing is visited iff start > end |
| FixedOffset.ThreeHourIterations | lekerdezes.py:39-59 | from `min` to `max` the loop makes exactly `floor((max - min) / 3h) + 1` iterations |
| FixedOffset.ThreeHourReport | lekerdezes.py:33-37 | no report (the program raises) exactly when the table is empty |
| FixedOffset.ThreeHourReportSound | lekerdezes.py:39-57 | every printed section compares a time on the 3-hour grid from the earliest capture with that time plus 3 hours, both snapshots non-empty and differing |
| FixedOffset.ThreeHourReportComplete | lekerdezes.py:39-57 | every grid time whose snapshot and the one 3 hours later are non-empty and differ gets its section |
| FixedOffset.ThreeHourReportAscending | lekerdezes.py:39-59 | sections are printed in ascending time order |
| FixedOffset.OffGridNeverRead | lekerdezes.py:40-43 | two tables with the same capture times that agree on every grid time print the same report, so off-grid snapshots are never read |
| FixedOffset.GridPairOnGrid | lekerdezes.py:40-43 | each visited time lies on the grid and its partner is one step later |
| FixedOffset.GridIndex | lekerdezes.py:39-40 | every grid time up to the end is visited, at the index its offset gives |
| FixedOffset.ReportEveryThreeHours | lekerdezes.py:36-59 | the `while current_time <= end_time` loop makes `floor((end - start) / 3h) + 1` iterations (none when start > end) and prints the sections of the grid pairs |
| Render.NatToString | main.py:59 | `str(n)`: non-empty decimal digits without a leading zero whose value is `n` |
| Render.Html | main.py:44-68 | the fragment opens with the `<h2>` header naming the first section's two times |
| Render.HtmlSectionAt | main.py:46-65 | the fragment up to section `k` is exactly the earlier sections' fragment, and section `k`'s `<h2>` header starts right there |
| Render.HtmlEmptyIff | main.py:44-68 | the HTML fragment is empty iff there is no section |
| Render.HtmlAppend | main.py:46-65 | the fragment of concatenated sections is the concatenation of the fragments |
| Render.ConsoleEmptyIff | lekerdezes.py:48-57 | nothing is printed iff there is no section |
| Render.Console | lekerdezes.py:48-57 | the output opens with the header line naming the first section's two times |
| Render.ConsoleAppend | lekerdezes.py:39-59 | the output for concatenated sections is the concatenation of the outputs |
| Render.ConsoleSectionAt | lekerdezes.py:39-59 | the output up to section `k` is exactly the earlier sections' output, and section `k`'s header line starts right there |
| Chars.Leftmost | SQlite_start.py:36 | `re.search`: the first position at or after `from` where the pattern matches, or none if it matches nowhere |
| Chars.RunEnd | SQlite_start.py:40 | a greedy character-class repetition: the maximal run from `i` |
| Chars.StripBounds | SQlite_start.py:37 | `str.strip()` leaves the infix between leading and trailing whitespace, with no whitespace at either end |
| Chars.RemoveCommasSpec | SQlite_start.py:41 | `replace(',', '')` leaves no comma, adds no character and keeps every other character |
| Chars.RemoveCommasAppend | SQlite_start.py:41 | `replace(',', '')` works character by character in order: it distributes over concatenation |
| Chars.RemoveCommasCounts | SQlite_start.py:41 | every character other than a comma is kept exactly as often as it occurs |
| Chars.RemoveCommasNoComma | SQlite_start.py:41 | a string without commas is left unchanged |
| Chars.RemoveCommasChar | SQlite_start.py:41 | a single character is dropped iff it is a comma |
| Chars.RemoveCommasValue | SQlite_start.py:41 | the comma-free group is all digits and its decimal value is the group's digits read left to right, commas skipped |
| Extractors.ExtractInsOuts | SQlite_start.py:47-52 | each count is `None` iff its marker is followed by a digit nowhere, otherwise the greedy digit run after the leftmost such marker; the two searches are independent |
| Extractors.SearchNumber | SQlite_start.py:48-51 | `None` iff `marker\d` occurs nowhere; otherwise the value of the greedy digit run after the leftmost such marker |
| Extractors.DigitGroup | SQlite_start.py:48-50 | the captured `(\d+)` group is non-empty, all digits, and maximal |
| Extractors.BtcAtIsRegexMatch | SQlite_start.py:40 | the scanner matches at `p` iff `([\d,]+)\s*BTC` does, and backtracking has no other split, so the group is the maximal digit/comma run |
| Extractors.ExtractBtcAmount | SQlite_start.py:39-41 | `None` iff the pattern matches nowhere |
| Extractors.NumberOf | SQlite_start.py:41 | `float` of the comma-free group raises exactly when the group is commas only; otherwise it is the group's digits read in order, commas skipped |
| Extractors.ExtractBtcAmountValue | SQlite_start.py:39-41 | when `([\d,]+)\s*BTC` matches at `p` with group `[p, q)` and nowhere earlier, the result is that group's value, or `ValueError` if it is commas only |
| Extractors.BtcGroupIsWholeRun | SQlite_start.py:40 | the leftmost match never starts inside a digit/comma run |
| Extractors.UsdAtIsRegexMatch | SQlite_start.py:44 | the scanner matches at `p` iff `\$\s*([\d,]+)` does; every split starts the group where the scanner does, and the greedy group is the longest |
| Extractors.ExtractUsdAmount | SQlite_start.py:43-45 | `None` iff no `$` is followed by optional whitespace and a digit or comma |
| Extractors.ExtractUsdAmountValue | SQlite_start.py:43-45 | when `\$\s*([\d,]+)` matches at `p` and nowhere earlier, and `[w, q)` is the longest group it allows there, the result is that group's value, or `ValueError` if it is commas only |
| Extractors.WalletAtIsRegexMatch | SQlite_start.py:36 | `wallet:\s*([^B]+)` matches at `p` iff the marker is followed by a non-`B` character |
| Extractors.ExtractWalletName | SQlite_start.py:35-37 | `None` iff no `wallet:` is followed by a non-`B` character |
| Extractors.WalletGroup | SQlite_start.py:36 | the captured group is one the pattern allows after the marker, and it runs up to a `B` or the end of the text |
| Extractors.WalletGroupStrips | SQlite_start.py:36-37 | whichever way the engine splits whitespace and group, the stripped group is the stripped maximal non-`B` run after the marker |
| Extractors.WalletNameSpec | SQlite_start.py:36-37 | the name is the stripped non-`B` run after the leftmost match; it holds no `B` and no whitespace at either end |
| Extractors.WalletNameStopsAtB | SQlite_start.py:36 | as written, a name starting with `B` comes out empty |
| Extractors.ExtractWalletNameToUnit | SQlite_start.py:35-37 | corrected reading: `None` iff there is no `wallet:` marker |
| Extractors.WalletNameToUnitSpec | SQlite_start.py:35-37 | the corrected name has no whitespace at either end and never contains `BTC` |
| Extractors.WalletNameToUnitKeepsB | SQlite_start.py:35-37 | corrected reading: `"wallet: Binance-coldwallet"` gives `"Binance-coldwallet"`, the input the as-written pattern empties |
| Extractors.WalletNameToUnitRoundTrip | SQlite_start.py:35-37 | a trimmed name without `BTC` after `wallet: ` comes back whole, capital `B`s included |
| FilenameTimestamp.FindToken | SQlite_start.py:55 | the leftmost `\d{8}_\d{6}` token, or none iff there is no token |
| FilenameTimestamp.ExtractTimestampFromFilename | SQlite_start.py:54-58 | `None` iff there is no token; `ValueError` exactly when `strptime` rejects the leftmost token's date or time |
| FilenameTimestamp.IsoOfToken | SQlite_start.py:57 | the ISO form of a valid token is its digits rearranged as `YYYY-MM-DDTHH:MM:SS` |
| FilenameTimestamp.ExtractRearrangesToken | SQlite_start.py:55-57 | the extractor's result is the leftmost token rearranged |
| FilenameTimestamp.CompactFormat | main2.py:41 | `strftime('%Y%m%d_%H%M%S')` produces a token that `strptime(..., '%Y%m%d_%H%M%S')` of SQlite_start.py:57 reads back as the same date-time |
| FilenameTimestamp.FilenameRoundTrip | SQlite_start.py:54-57 | the name `bitcoin_rich_list_<strftime>.csv` of a valid date-time yields that date-time's ISO form |
| Scenarios.InsOutsBoth | SQlite_start.py:47-52 | `"Ins:5 Outs:3"` gives `(5, 3)` |
| Scenarios.InsOutsOnlyIns | SQlite_start.py:47-52 | `"Ins:5"` gives `(5, None)` |
| Scenarios.BtcStopsAtDecimalPoint | SQlite_start.py:39-41 | `"1,234.00 BTC"` gives 0 |
| Scenarios.BtcAbsent | SQlite_start.py:39-41 | `"no amount here"` gives `None` |
| Scenarios.UsdWholeDollars | SQlite_start.py:43-45 | `"$1,234.56"` gives 1234 |
| Scenarios.FilenameExample | SQlite_start.py:54-58 | `"bitcoin_rich_list_20240115_093000.csv"` gives `"2024-01-15T09:30:00"` |
| Scenarios.FewCapturesReportNothing | main.py:46 | fewer than two capture times give no section and an empty fragment |
| Scenarios.TwoCapturesOneChange | main.py:46-65 | two captures where only rank 2's `ins` goes from 4 to 7 give one section with one block that has an INS line and no OUTS line |

## Left out

- Scraping: the HTTP fetch and BeautifulSoup table parsing (main.py:70-99) and main2.py's CSV writer (main2.py:39-47) are network and file I/O. So is main.py's insertion of each capture into SQLite (main.py:102-129).
- SQLite: connecting, creating, inserting and selecting are replaced by the store map. An absent capture time reads as no rows.
- CSV import: reading the files and `os.listdir` in SQlite_start.py:60-88 are file I/O. main2.py's scraper is not part of this model; only the file-name format of main2.py:41-42 is used.
- Scheduling and serving: APScheduler jobs, the FastAPI endpoints, the static HTML page around the fragment (main.py:136-168), uvicorn and the free-port search are concurrency and server plumbing.
- Capture times are integers, but the program stores them as TEXT. It sorts them as text (main.py:41) and looks rows up by the text of `isoformat()` (lekerdezes.py:42-43). Integers model this only if every stored time has the one layout `YYYY-MM-DDTHH:MM:SS` that both writers produce (main.py:102, SQlite_start.py:57). With that layout, text order is time order, and `isoformat()` reproduces the stored key.
- NULL capture times are not modelled. SQlite_start.py:65 stores NULL for a file name without a token. Dropping them changes no report. `WHERE timestamp = NULL` selects no rows, so a NULL time never yields a section in `generate_report`. `MIN`/`MAX` skip NULL in lekerdezes.py.
- `datetime.now()` truncation to the hour (main.py:102) is a clock read.
- How capture times print (`str` of a stored string, or `isoformat()`) is the `showTime` parameter of the renderers. How an `ins`/`outs` value prints is the `show` parameter.
- Extractors.NumberOf: amounts are `nat`, not `float`. A `[\d,]+` group without its commas is a whole number. In Python, values above 2^53 round, and values above about 1.8e308 become `inf`. The model gives the exact integer in both cases.
- Report.Lookup: a map lookup standing in for the `SELECT` of `get_data_for_timestamp`; it has no contract of its own. What the table guarantees about it (a capture time always selects rows, in rank order) is `Report.WellFormed`, stated in `Report.LookupSelects`. The report lemmas hold for every store, well-formed or not.
- Extractors.SearchNumber: a digit run longer than 4300 digits makes Python's `int()` raise `ValueError`, as for `Extractors.ExtractInsOuts` below; the model returns the value.
- Extractors.ExtractInsOuts: a digit run longer than 4300 digits makes Python's `int()` raise `ValueError` (the default `int` string-conversion limit of Python 3.11+ and later 3.8-3.10 patch releases). The model returns the value instead, because the limit depends on the interpreter version and its settings.
- `\d`, `\s` and `str.strip()` are modelled on ASCII: digits `0`-`9`, and whitespace is space, `\t`, `\n`, `\v`, `\f`, `\r` and `\x1c`-`\x1f`. Python's Unicode digits and spaces are not modelled.
- Rendered text: the renderers carry emptiness, concatenation and header-position lemmas only. The per-line contents are stated on the structured `Block` (Report.ReportedBlocksShowChanges), not on the rendered text.
- FilenameTimestamp.FilenameRoundTrip: covers years 1000 to 9999 only, because `strftime('%Y')` does not zero-pad smaller years on every platform.
- `strptime`'s own field checks and `datetime`'s calendar checks are one predicate (`FilenameTimestamp.Valid`), because both raise `ValueError`.

## Findings

| source | as written | input that shows it | evidently intended | confidence | as-written member | corrected member |
|---|---|---|---|---|---|---|
| SQlite_start.py:36 | `wallet:\s*([^B]+)` stops the name at the first capital `B`, meant as the start of the `BTC` balance unit | `"wallet: Binance-coldwallet"` gives `""` | the text after `wallet:` up to the balance unit `BTC`, stripped, so `"Binance-coldwallet"` | not executed | Extractors.WalletNameStopsAtB | Extractors.WalletNameToUnitKeepsB |

=== FILE: adjacent.dfy ===
/** `generate_report` of main.py: pair every capture time with the next
    one, in ascending order. */
module Adjacent {
  import opened Snapshot
  import opened Report
  import opened Timeline

  /** `(timestamps[i-1], timestamps[i])` for `i` in `range(1, len(timestamps))`. */
  function AdjacentPairs(ts: seq<int>): seq<(int, int)> {
    if |ts| < 2 then [] else seq(|ts| - 1, i requires 0 <= i < |ts| - 1 => (ts[i], ts[i + 1]))
  }

  /** The sections of the report, in the order they are written: each
      compares two capture times, the earlier first, and there are fewer
      sections than capture times. */
  function GenerateReport<T(==)>(store: Store<T>): (r: seq<Section<T>>)
    ensures |r| == 0 || |r| < |store.Keys|
    ensures forall k :: 0 <= k < |r| ==> r[k].from in store && r[k].to in store && r[k].from < r[k].to
  {
    var ts := SortedKeys(store.Keys);
    AdjacentPairsWithin(ts);
    ReportPairs(store, AdjacentPairs(ts))
  }

  /** Each adjacent pair of an ascending list holds two of its elements,
      the earlier first. */
  lemma AdjacentPairsWithin(ts: seq<int>)
    requires StrictlyAscending(ts)
    ensures forall a, b :: (a, b) in AdjacentPairs(ts) ==> a in ts && b in ts && a < b
  {
    var ps := AdjacentPairs(ts);
    forall a, b | (a, b) in ps ensures a in ts && b in ts && a < b {
      var i :| 0 <= i < |ps| && ps[i] == (a, b);
      assert a == ts[i] && b == ts[i + 1];
    }
  }

  /** `a` and `b` are capture times of the store and no capture time lies
      strictly between them. */
  predicate Consecutive<T>(store: Store<T>, a: int, b: int) {
    a in store && b in store && a < b && forall t :: t in store ==> !(a < t < b)
  }

  /** `a` and `b` are in `ts` and no element of `ts` lies strictly between. */
  predicate ConsecutiveIn(ts: seq<int>, a: int, b: int) {
    a in ts && b in ts && a < b && forall t :: t in ts ==> !(a < t < b)
  }

  /** In an ascending list, the adjacent pairs are exactly the consecutive
      elements. */
  lemma AdjacentPairsOfAscending(ts: seq<int>, a: int, b: int)
    requires StrictlyAscending(ts)
    ensures (a, b) in AdjacentPairs(ts) <==> ConsecutiveIn(ts, a, b)
  {
    var ps := AdjacentPairs(ts);
    if (a, b) in ps {
      var i :| 0 <= i < |ps| && ps[i] == (a, b);
      assert a == ts[i] && b == ts[i + 1];
      forall t | t in ts ensures !(a < t < b) {
        var j :| 0 <= j < |ts| && ts[j] == t;
        AscendingIndexOrder(ts, i, j);
        AscendingIndexOrder(ts, j, i + 1);
      }
    }
    if ConsecutiveIn(ts, a, b) {
      var i :| 0 <= i < |ts| && ts[i] == a;
      var j :| 0 <= j < |ts| && ts[j] == b;
      AscendingIndexOrder(ts, i, j);
      assert ts[i + 1] in ts;
      assert !(a < ts[i + 1] < b);
      AscendingIndexOrder(ts, i, i + 1);
      AscendingIndexOrder(ts, i + 1, j);
      assert j == i + 1;
      assert ps[i] == (a, b);
    }
  }

  /** The adjacent pairs of the sorted capture times are exactly the
      consecutive capture times. */
  lemma AdjacentPairsAreConsecutive<T>(store: Store<T>, a: int, b: int)
    ensures (a, b) in AdjacentPairs(SortedKeys(store.Keys)) <==> Consecutive(store, a, b)
  {
    var ts := SortedKeys(store.Keys);
    AdjacentPairsOfAscending(ts, a, b);
    assert ConsecutiveIn(ts, a, b) <==> Consecutive(store, a, b);
  }

  /** Every section is for two consecutive capture times whose snapshots
      are both non-empty and differ, and holds the blocks of their diff. */
  lemma GenerateReportSound<T>(store: Store<T>)
    ensures forall k :: 0 <= k < |GenerateReport(store)| ==>
              var s := GenerateReport(store)[k];
              && Consecutive(store, s.from, s.to)
              && Reportable(store, (s.from, s.to))
              && s == SectionFor(store, (s.from, s.to))
  {
    var r := GenerateReport(store);
    forall k | 0 <= k < |r| ensures Consecutive(store, r[k].from, r[k].to) {
      AdjacentPairsAreConsecutive(store, r[k].from, r[k].to);
    }
  }

  /** Every pair of consecutive capture times whose snapshots are both
      non-empty and differ has its section. */
  lemma GenerateReportComplete<T>(store: Store<T>, a: int, b: int)
    requires Consecutive(store, a, b) && Reportable(store, (a, b))
    ensures SectionFor(store, (a, b)) in GenerateReport(store)
  {
    var ps := AdjacentPairs(SortedKeys(store.Keys));
    AdjacentPairsAreConsecutive(store, a, b);
    var j :| 0 <= j < |ps| && ps[j] == (a, b);
  }

  /** Sections are written in ascending time order. */
  lemma GenerateReportAscending<T>(store: Store<T>)
    ensures forall i, j :: 0 <= i < j < |GenerateReport(store)| ==>
              GenerateReport(store)[i].from < GenerateReport(store)[j].from
  {
    var ts := SortedKeys(store.Keys);
    var ps := AdjacentPairs(ts);
    forall i, j | 0 <= i < j < |ps| ensures ps[i].0 < ps[j].0 {
      AscendingIndexOrder(ts, i, j);
    }
    ReportPairsOrdered(store, ps);
  }

  /** With fewer than two capture times the report is empty; otherwise it
      has fewer sections than there are capture times. */
  lemma GenerateReportSize<T>(store: Store<T>)
    ensures |store.Keys| < 2 ==> GenerateReport(store) == []
    ensures |GenerateReport(store)| == 0 || |GenerateReport(store)| < |store.Keys|
  {
  }

  /** The imperative loop of `generate_report` over `range(1, len(timestamps))`. */
  method GenerateReportLoop<T(==)>(store: Store<T>) returns (sections: seq<Section<T>>)
    ensures sections == GenerateReport(store)
  {
    var ts := SortedKeys(store.Keys);
    if |ts| < 2 {
      return [];
    }
    ghost var ps := AdjacentPairs(ts);
    sections := [];
    var i := 1;
    while i < |ts|
      invariant 1 <= i <= |ts|
      invariant sections == ReportPairs(store, ps[..i - 1])
    {
      assert ps[i - 1] == (ts[i - 1], ts[i]);
      ReportPairsSnoc(store, ps, i - 1);
      var written := ReportPair(store, ts[i - 1], ts[i]);
      sections := sections + written;
      i := i + 1;
    }
    assert ps[..|ps|] == ps;
  }
}

=== FILE: chars.dfy ===
/** Character classes and string scanning shared by the field extractors.
    Everything is ASCII: Python's Unicode `\d`, `\s` and `str.strip` are
    restricted to their ASCII members. */
module Chars {
  import opened Wrappers

  /** Regex `\d` on ASCII. */
  predicate IsDigit(c: char) { '0' <= c <= '9' }

  /** Regex `\s` and the characters `str.strip()` removes, on ASCII:
      space, tab, line feed, vertical tab, form feed, carriage return and the
      four separators 0x1C-0x1F. */
  predicate IsSpace(c: char) {
    c == ' ' || c == '\t' || c == '\n' || c == '\U{0B}' || c == '\U{0C}' || c == '\r'
    || ('\U{1C}' <= c <= '\U{1F}')
  }

  /** Regex class `[\d,]`. */
  predicate IsDigitOrComma(c: char) { IsDigit(c) || c == ',' }

  /** Regex class `[^B]`. */
  predicate IsNotB(c: char) { c != 'B' }

  predicate AllDigits(s: string) { forall k :: 0 <= k < |s| ==> IsDigit(s[k]) }

  /** `w` occurs in `s` starting at position `p`. */
  predicate OccursAt(s: string, p: nat, w: string) {
    p + |w| <= |s| && s[p..p + |w|] == w
  }

  function DigitValue(c: char): (d: nat)
    requires IsDigit(c)
    ensures d < 10
  {
    (c as int) - ('0' as int)
  }

  function DigitChar(d: nat): (c: char)
    requires d < 10
    ensures IsDigit(c) && DigitValue(c) == d
  {
    (('0' as int) + d) as char
  }

  /** Python's `int(ds)` on a non-empty string of ASCII digits. */
  function DecimalValue(ds: string): nat
    requires AllDigits(ds)
  {
    if |ds| == 0 then 0 else 10 * DecimalValue(ds[..|ds| - 1]) + DigitValue(ds[|ds| - 1])
  }

  /** `s.replace(',', '')`. */
  function RemoveCommas(s: string): string
  {
    if |s| == 0 then []
    else if s[0] == ',' then RemoveCommas(s[1..])
    else [s[0]] + RemoveCommas(s[1..])
  }

  /** Removing commas leaves no comma, adds no character and keeps every
      other character. */
  lemma {:induction false} RemoveCommasSpec(s: string)
    ensures forall k :: 0 <= k < |RemoveCommas(s)| ==> RemoveCommas(s)[k] != ','
    ensures forall k :: 0 <= k < |RemoveCommas(s)| ==> RemoveCommas(s)[k] in s
    ensures forall k :: 0 <= k < |s| && s[k] != ',' ==> s[k] in RemoveCommas(s)
  {
    if |s| > 0 {
      RemoveCommasSpec(s[1..]);
      var r := RemoveCommas(s);
      var t := RemoveCommas(s[1..]);
      forall k | 0 <= k < |r| ensures r[k] != ',' && r[k] in s {
        if s[0] != ',' && k == 0 {
        } else if s[0] != ',' {
          assert r[k] == t[k - 1];
          assert t[k - 1] in s[1..];
        } else {
          assert t[k] in s[1..];
        }
      }
      forall k | 0 <= k < |s| && s[k] != ',' ensures s[k] in r {
        if k > 0 {
          assert s[k] == s[1..][k - 1];
        }
      }
    }
  }

  /** Removing commas works character by character, keeping the order:
      it distributes over concatenation. */
  lemma {:induction false} RemoveCommasAppend(a: string, b: string)
    ensures RemoveCommas(a + b) == RemoveCommas(a) + RemoveCommas(b)
    decreases |a|
  {
    if |a| == 0 {
      assert a + b == b;
    } else {
      assert (a + b)[0] == a[0];
      assert (a + b)[1..] == a[1..] + b;
      RemoveCommasAppend(a[1..], b);
    }
  }

  /** Every character other than a comma is kept as often as it occurs. */
  lemma {:induction false} RemoveCommasCounts(s: string)
    ensures multiset(RemoveCommas(s)) == multiset(s)[',' := 0]
  {
    if |s| > 0 {
      RemoveCommasCounts(s[1..]);
      assert s == [s[0]] + s[1..];
      assert multiset(s) == multiset{s[0]} + multiset(s[1..]);
      if s[0] != ',' {
        assert multiset(RemoveCommas(s)) == multiset{s[0]} + multiset(RemoveCommas(s[1..]));
      }
    }
  }

  /** A string without commas is left as it is. */
  lemma {:induction false} RemoveCommasNoComma(s: string)
    requires forall k :: 0 <= k < |s| ==> s[k] != ','
    ensures RemoveCommas(s) == s
  {
    if |s| > 0 {
      assert forall k :: 0 <= k < |s[1..]| ==> s[1..][k] == s[k + 1];
      RemoveCommasNoComma(s[1..]);
    }
  }

  /** A single character is dropped iff it is a comma. */
  lemma RemoveCommasChar(c: char)
    ensures RemoveCommas([c]) == if c == ',' then [] else [c]
  {
    assert [c][1..] == [];
  }

  /** A group of regex class `[\d,]` holding no digit. */
  predicate CommasOnly(g: string) { forall k :: 0 <= k < |g| ==> g[k] == ',' }

  /** The number a digit/comma group spells when read left to right as
      decimal digits, skipping every comma. */
  function GroupValue(g: string): nat
    requires forall k :: 0 <= k < |g| ==> IsDigitOrComma(g[k])
  {
    if |g| == 0 then 0
    else if g[|g| - 1] == ',' then GroupValue(g[..|g| - 1])
    else
      assert IsDigitOrComma(g[|g| - 1]);
      10 * GroupValue(g[..|g| - 1]) + DigitValue(g[|g| - 1])
  }

  /** `int(g.replace(',', ''))` reads the digits of `g` in order, skipping
      the commas: the comma-free string is all digits and spells the
      group's value. */
  lemma {:induction false} RemoveCommasValue(g: string)
    requires forall k :: 0 <= k < |g| ==> IsDigitOrComma(g[k])
    ensures AllDigits(RemoveCommas(g)) && DecimalValue(RemoveCommas(g)) == GroupValue(g)
    decreases |g|
  {
    if |g| > 0 {
      var h, c := g[..|g| - 1], g[|g| - 1];
      assert g == h + [c];
      RemoveCommasValue(h);
      RemoveCommasAppend(h, [c]);
      RemoveCommasChar(c);
      var x := RemoveCommas(h);
      if c != ',' {
        assert RemoveCommas(g) == x + [c];
        assert (x + [c])[..|x|] == x;
      } else {
        assert RemoveCommas(g) == x;
      }
    }
  }

  /** End of the maximal run of characters satisfying `p` that starts at `i`:
      what a greedy `[...]*` or `[...]+` consumes from `i`. */
  function RunEnd(s: string, i: nat, p: char -> bool): (e: nat)
    requires i <= |s|
    ensures i <= e <= |s|
    ensures forall k :: i <= k < e ==> p(s[k])
    ensures e == |s| || !p(s[e])
    decreases |s| - i
  {
    if i < |s| && p(s[i]) then RunEnd(s, i + 1, p) else i
  }

  /** A run of `p`-characters from `i` to `q` is covered by the maximal run. */
  lemma {:induction false} RunEndAtLeast(s: string, i: nat, p: char -> bool, q: nat)
    requires i <= q <= |s|
    requires forall k :: i <= k < q ==> p(s[k])
    ensures q <= RunEnd(s, i, p)
    decreases q - i
  {
    if i < q {
      RunEndAtLeast(s, i + 1, p, q);
    }
  }

  /** `re.search`: the leftmost start position, at or after `from`, where
      the pattern described by `matches` matches. */
  function Leftmost(s: string, from: nat, matches: nat -> bool): (r: Option<nat>)
    ensures r.Some? ==> from <= r.value <= |s| && matches(r.value)
    ensures r.Some? ==> forall q :: from <= q < r.value ==> !matches(q)
    ensures r.None? ==> forall q :: from <= q <= |s| ==> !matches(q)
    decreases |s| + 1 - from
  {
    if from > |s| then None
    else if matches(from) then Some(from)
    else Leftmost(s, from + 1, matches)
  }

  /** `str.lstrip()`. */
  function TrimLeft(s: string): (r: string)
    ensures |r| <= |s| && r == s[|s| - |r|..]
    ensures forall k :: 0 <= k < |s| - |r| ==> IsSpace(s[k])
    ensures |r| == 0 || !IsSpace(r[0])
  {
    if |s| > 0 && IsSpace(s[0]) then TrimLeft(s[1..]) else s
  }

  /** `str.rstrip()`. */
  function TrimRight(s: string): (r: string)
    ensures |r| <= |s| && r == s[..|r|]
    ensures forall k :: |r| <= k < |s| ==> IsSpace(s[k])
    ensures |r| == 0 || !IsSpace(r[|r| - 1])
  {
    if |s| > 0 && IsSpace(s[|s| - 1]) then TrimRight(s[..|s| - 1]) else s
  }

  /** `str.strip()`: the result is the infix `s[i..j]` left after removing
      every leading and every trailing whitespace character. */
  function Strip(s: string): (r: string)
  {
    TrimRight(TrimLeft(s))
  }

  /** The characterisation of `Strip`: the result is the infix `s[i..j]`
      left after removing whitespace only, and all of it at both ends. */
  lemma StripBounds(s: string) returns (i: nat, j: nat)
    ensures i <= j <= |s| && Strip(s) == s[i..j]
    ensures forall k :: 0 <= k < i ==> IsSpace(s[k])
    ensures forall k :: j <= k < |s| ==> IsSpace(s[k])
    ensures |Strip(s)| == 0 || (!IsSpace(Strip(s)[0]) && !IsSpace(Strip(s)[|Strip(s)| - 1]))
  {
    var l := TrimLeft(s);
    i := |s| - |l|;
    TrimRightInfix(s, i, l);
    j := i + |TrimRight(l)|;
    StripEnds(s);
  }

  /** Right-trimming a suffix `s[i..]` leaves an infix of `s` followed by
      whitespace only. */
  lemma TrimRightInfix(s: string, i: nat, l: string)
    requires i <= |s| && l == s[i..]
    ensures i + |TrimRight(l)| <= |s| && s[i..i + |TrimRight(l)|] == TrimRight(l)
    ensures forall k :: i + |TrimRight(l)| <= k < |s| ==> IsSpace(s[k])
  {
    var r := TrimRight(l);
    assert r == l[..|r|];
    forall k | i + |r| <= k < |s| ensures IsSpace(s[k]) {
      assert s[k] == l[k - i];
    }
  }

  /** The stripped text starts and ends with a non-whitespace character. */
  lemma StripEnds(s: string)
    ensures |Strip(s)| == 0 || (!IsSpace(Strip(s)[0]) && !IsSpace(Strip(s)[|Strip(s)| - 1]))
  {
    var l := TrimLeft(s);
    var r := TrimRight(l);
    if |r| > 0 {
      assert r[0] == l[0];
    }
  }

  /** Stripping adds no character. */
  lemma StripAddsNothing(s: string, c: char)
    requires c !in s
    ensures c !in Strip(s)
  {
    var i, j := StripBounds(s);
  }

  /** Leading whitespace does not change the stripped result. */
  lemma StripSkipsLeadingSpace(ws: string, t: string)
    requires forall k :: 0 <= k < |ws| ==> IsSpace(ws[k])
    ensures Strip(ws + t) == Strip(t)
  {
    TrimLeftSkipsLeadingSpace(ws, t);
  }

  lemma {:induction false} TrimLeftSkipsLeadingSpace(ws: string, t: string)
    requires forall k :: 0 <= k < |ws| ==> IsSpace(ws[k])
    ensures TrimLeft(ws + t) == TrimLeft(t)
    decreases |ws|
  {
    if |ws| > 0 {
      var s := ws + t;
      assert s[0] == ws[0];
      assert s[1..] == ws[1..] + t;
      assert TrimLeft(s) == TrimLeft(s[1..]);
      TrimLeftSkipsLeadingSpace(ws[1..], t);
    } else {
      assert ws + t == t;
    }
  }

  /** A string made only of whitespace strips to the empty string. */
  lemma AllSpaceStripsToEmpty(ws: string)
    requires forall k :: 0 <= k < |ws| ==> IsSpace(ws[k])
    ensures Strip(ws) == ""
  {
    TrimLeftSkipsLeadingSpace(ws, "");
    assert ws + "" == ws;
    assert TrimLeft("") == "";
    assert TrimRight("") == "";
  }

  /** A string with no whitespace at either end is its own strip. */
  lemma StripKeepsTrimmed(s: string)
    requires |s| == 0 || (!IsSpace(s[0]) && !IsSpace(s[|s| - 1]))
    ensures Strip(s) == s
  {
    assert TrimLeft(s) == s;
  }

  /** An occurrence inside the infix `s[i..j]` is an occurrence in `s`. */
  lemma OccursInInfix(s: string, i: nat, j: nat, k: nat, w: string)
    requires i <= j <= |s| && OccursAt(s[i..j], k, w)
    ensures OccursAt(s, i + k, w)
  {
    forall t | 0 <= t < |w| ensures s[i + k + t] == w[t] {
      assert s[i..j][k..k + |w|][t] == s[i..j][k + t];
    }
  }

  /** Stripping cannot create an occurrence of `w`. */
  lemma StripKeepsAbsence(s: string, w: string)
    requires forall k :: 0 <= k <= |s| ==> !OccursAt(s, k, w)
    ensures forall k :: 0 <= k <= |Strip(s)| ==> !OccursAt(Strip(s), k, w)
  {
    var i, j := StripBounds(s);
    forall k | 0 <= k <= |Strip(s)| ensures !OccursAt(Strip(s), k, w) {
      if OccursAt(Strip(s), k, w) {
        OccursInInfix(s, i, j, k, w);
        assert false;
      }
    }
  }
}

=== FILE: extractors.dfy ===
/** The field extractors of SQlite_start.py. Each is a `re.search`: the
    leftmost start position where the pattern matches, then the group the
    regex engine captures there. A scanner over the string stands for each
    pattern, and a lemma ties the scanner to the pattern's own semantics,
    backtracking included. */
module Extractors {
  import opened Wrappers
  import opened Chars

  // ---- extract_ins_outs: `Ins:(\d+)` and `Outs:(\d+)` --------------------

  /** `marker(\d+)` matches at `p`: the marker, then at least one digit. */
  predicate NumberAt(s: string, marker: string, p: nat) {
    OccursAt(s, p, marker) && p + |marker| < |s| && IsDigit(s[p + |marker|])
  }

  /** `p` is the leftmost position where `marker(\d+)` matches. */
  predicate FirstNumberAt(s: string, marker: string, p: nat) {
    NumberAt(s, marker, p) && forall q :: 0 <= q < p ==> !NumberAt(s, marker, q)
  }

  /** The greedy `(\d+)` group after the marker at `p`. */
  function DigitGroup(s: string, marker: string, p: nat): (g: string)
    requires NumberAt(s, marker, p)
    ensures |g| > 0 && AllDigits(g)
    ensures var st := p + |marker|;
            st + |g| <= |s| && g == s[st..st + |g|] && (st + |g| == |s| || !IsDigit(s[st + |g|]))
  {
    var st := p + |marker|;
    s[st..RunEnd(s, st, IsDigit)]
  }

  /** `re.search(marker + r'(\d+)', s)`: the match position. */
  function FindNumber(s: string, marker: string): (r: Option<nat>)
    ensures r.None? <==> forall p :: 0 <= p <= |s| ==> !NumberAt(s, marker, p)
    ensures r.Some? ==> FirstNumberAt(s, marker, r.value)
  {
    var matches := (p: nat) => NumberAt(s, marker, p);
    assert forall p: nat :: matches(p) == NumberAt(s, marker, p);
    Leftmost(s, 0, matches)
  }

  /** `int(m.group(1)) if m else None`. */
  function SearchNumber(s: string, marker: string): (r: Option<nat>)
    ensures r.None? <==> forall p :: 0 <= p <= |s| ==> !NumberAt(s, marker, p)
    ensures r.Some? ==> exists p :: FirstNumberAt(s, marker, p) && r.value == DecimalValue(DigitGroup(s, marker, p))
  {
    match FindNumber(s, marker)
    case None => None
    case Some(p) => Some(DecimalValue(DigitGroup(s, marker, p)))
  }

  /** `extract_ins_outs`: the two counts are searched independently; each
      is `None` iff its marker is followed by a digit nowhere, and otherwise
      the digit run after the leftmost such marker. */
  function ExtractInsOuts(address: string): (r: (Option<nat>, Option<nat>))
    ensures r.0.None? <==> forall p :: 0 <= p <= |address| ==> !NumberAt(address, "Ins:", p)
    ensures r.1.None? <==> forall p :: 0 <= p <= |address| ==> !NumberAt(address, "Outs:", p)
    ensures r.0.Some? ==> exists p :: FirstNumberAt(address, "Ins:", p) && r.0.value == DecimalValue(DigitGroup(address, "Ins:", p))
    ensures r.1.Some? ==> exists p :: FirstNumberAt(address, "Outs:", p) && r.1.value == DecimalValue(DigitGroup(address, "Outs:", p))
  {
    (SearchNumber(address, "Ins:"), SearchNumber(address, "Outs:"))
  }

  // ---- extract_btc_amount: `([\d,]+)\s*BTC` -------------------------------

  /** The pattern's own semantics at `p`: a digit/comma run `[p, q)`, a
      whitespace run `[q, w)`, then `BTC`, for some split `q`, `w`. */
  predicate BtcRegexAt(s: string, p: nat, q: nat, w: nat) {
    && p < q <= w <= |s|
    && (forall k :: p <= k < q ==> IsDigitOrComma(s[k]))
    && (forall k :: q <= k < w ==> IsSpace(s[k]))
    && OccursAt(s, w, "BTC")
  }

  /** The greedy scanner: maximal digit/comma run, maximal whitespace run,
      then `BTC`. */
  predicate BtcAt(s: string, p: nat) {
    p < |s| && IsDigitOrComma(s[p])
    && var q := RunEnd(s, p, IsDigitOrComma);
       OccursAt(s, RunEnd(s, q, IsSpace), "BTC")
  }

  /** Backtracking cannot find another split: the pattern matches at `p`
      iff the greedy scanner does, and then only with the greedy split, so
      the captured group is the maximal digit/comma run from `p`. */
  lemma BtcAtIsRegexMatch(s: string, p: nat)
    ensures BtcAt(s, p) <==> exists q: nat, w: nat :: BtcRegexAt(s, p, q, w)
    ensures forall q: nat, w: nat :: BtcRegexAt(s, p, q, w) ==>
              q == RunEnd(s, p, IsDigitOrComma) && w == RunEnd(s, q, IsSpace)
  {
    forall q: nat, w: nat | BtcRegexAt(s, p, q, w)
      ensures q == RunEnd(s, p, IsDigitOrComma) && w == RunEnd(s, q, IsSpace)
    {
      BtcSplitUnique(s, p, q, w);
    }
    if BtcAt(s, p) {
      var q := RunEnd(s, p, IsDigitOrComma);
      var w := RunEnd(s, q, IsSpace);
      assert BtcRegexAt(s, p, q, w);
    }
  }

  lemma BtcSplitUnique(s: string, p: nat, q: nat, w: nat)
    requires BtcRegexAt(s, p, q, w)
    ensures q == RunEnd(s, p, IsDigitOrComma) && w == RunEnd(s, q, IsSpace)
  {
    RunEndAtLeast(s, p, IsDigitOrComma, q);
    assert s[w] == 'B' by {
      assert s[w..w + 3][0] == 'B';
    }
    if q < w {
      assert IsSpace(s[q]);
    }
    RunEndAtLeast(s, q, IsSpace, w);
  }

  /** `float(group.replace(',', ''))` for a digit/comma group: the group's
      digits read in order as a whole number, or `ValueError` when the group
      is commas only. */
  function NumberOf(group: string): (r: Result<nat, PyError>)
    requires forall k :: 0 <= k < |group| ==> IsDigitOrComma(group[k])
    ensures r.Failure? <==> CommasOnly(group)
    ensures r.Success? ==> r.value == GroupValue(group)
  {
    var ds := RemoveCommas(group);
    RemoveCommasSpec(group);
    RemoveCommasValue(group);
    if |ds| == 0 then
      Failure(ValueError)
    else
      assert ds[0] in group;
      assert ds[0] != ',';
      Success(DecimalValue(ds))
  }

  /** The group the BTC pattern captures at `p`. */
  function BtcGroup(s: string, p: nat): (g: string)
    requires BtcAt(s, p)
    ensures forall k :: 0 <= k < |g| ==> IsDigitOrComma(g[k])
  {
    s[p..RunEnd(s, p, IsDigitOrComma)]
  }

  /** Lift a conversion of the group into the extractor's result. */
  function Found(n: Result<nat, PyError>): Result<Option<nat>, PyError> {
    match n
    case Success(v) => Success(Some(v))
    case Failure(e) => Failure(e)
  }

  /** `re.search(r'([\d,]+)\s*BTC', balance)`: the match position. */
  function FindBtc(balance: string): (r: Option<nat>)
    ensures r.None? <==> forall p :: 0 <= p <= |balance| ==> !BtcAt(balance, p)
    ensures r.Some? ==> BtcAt(balance, r.value) && forall q :: 0 <= q < r.value ==> !BtcAt(balance, q)
  {
    var matches := (p: nat) => BtcAt(balance, p);
    assert forall p: nat :: matches(p) == BtcAt(balance, p);
    Leftmost(balance, 0, matches)
  }

  /** `extract_btc_amount`: `None` when the pattern does not match anywhere;
      otherwise the comma-stripped leftmost group as a whole number. */
  function ExtractBtcAmount(balance: string): (r: Result<Option<nat>, PyError>)
    ensures r == Success(None) <==> forall p :: 0 <= p <= |balance| ==> !BtcAt(balance, p)
  {
    match FindBtc(balance)
    case None => Success(None)
    case Some(p) => Found(NumberOf(BtcGroup(balance, p)))
  }

  /** The captured run is a whole digit/comma run of the text: the leftmost
      match never starts inside a run, so `1,234.00 BTC` captures `00`. */
  lemma BtcGroupIsWholeRun(balance: string)
    ensures FindBtc(balance).Some? ==>
              var p := FindBtc(balance).value;
              p == 0 || !IsDigitOrComma(balance[p - 1])
  {
    if FindBtc(balance).Some? {
      var p := FindBtc(balance).value;
      if p > 0 {
        BtcAtExtendsLeft(balance, p - 1);
      }
    }
  }

  /** A match preceded by a digit or comma is not the leftmost one: the
      pattern matches one position earlier too. */
  lemma BtcAtExtendsLeft(s: string, q: nat)
    requires q < |s|
    ensures IsDigitOrComma(s[q]) && BtcAt(s, q + 1) ==> BtcAt(s, q)
  {
    if IsDigitOrComma(s[q]) {
      assert RunEnd(s, q, IsDigitOrComma) == RunEnd(s, q + 1, IsDigitOrComma);
    }
  }

  /** The value `extract_btc_amount` returns, stated on the pattern's own
      semantics: when `([\d,]+)\s*BTC` matches at `p` with group `[p, q)` and
      at no earlier position, the result is that group's digits read in
      order, or `ValueError` when the group is commas only. */
  lemma ExtractBtcAmountValue(b: string, p: nat, q: nat, w: nat)
    requires BtcRegexAt(b, p, q, w)
    requires forall p': nat, q': nat, w': nat :: p' < p ==> !BtcRegexAt(b, p', q', w')
    ensures ExtractBtcAmount(b) ==
              if CommasOnly(b[p..q]) then Failure(ValueError) else Success(Some(GroupValue(b[p..q])))
  {
    forall p': nat | p' < p ensures !BtcAt(b, p') {
      BtcAtIsRegexMatch(b, p');
    }
    BtcAtIsRegexMatch(b, p);
    assert BtcAt(b, p);
    assert FindBtc(b) == Some(p);
    assert BtcGroup(b, p) == b[p..q];
  }

  // ---- extract_usd_amount: `\$\s*([\d,]+)` -------------------------------

  /** The pattern's own semantics at `p`: `$`, a whitespace run `[p+1, w)`,
      and a digit/comma group `[w, q)`, for some `w` and `q`. */
  predicate UsdRegexAt(s: string, p: nat, w: nat, q: nat) {
    && p + 1 <= w < q <= |s|
    && s[p] == '$'
    && (forall k :: p + 1 <= k < w ==> IsSpace(s[k]))
    && (forall k :: w <= k < q ==> IsDigitOrComma(s[k]))
  }

  /** The greedy scanner: `$`, maximal whitespace, then a digit or comma. */
  predicate UsdAt(s: string, p: nat) {
    p < |s| && s[p] == '$'
    && var w := RunEnd(s, p + 1, IsSpace);
       w < |s| && IsDigitOrComma(s[w])
  }

  /** The pattern matches at `p` iff the scanner does; every split starts
      the group where the scanner does, and greedy `[\d,]+` takes the
      longest group any split allows. */
  lemma UsdAtIsRegexMatch(s: string, p: nat)
    requires p < |s|
    ensures UsdAt(s, p) <==> exists w: nat, q: nat :: UsdRegexAt(s, p, w, q)
    ensures forall w: nat, q: nat :: UsdRegexAt(s, p, w, q) ==>
              w == RunEnd(s, p + 1, IsSpace) && q <= RunEnd(s, w, IsDigitOrComma)
  {
    forall w: nat, q: nat | UsdRegexAt(s, p, w, q)
      ensures w == RunEnd(s, p + 1, IsSpace) && q <= RunEnd(s, w, IsDigitOrComma)
    {
      RunEndAtLeast(s, p + 1, IsSpace, w);
      RunEndAtLeast(s, w, IsDigitOrComma, q);
      assert IsDigitOrComma(s[w]);
    }
    if UsdAt(s, p) {
      var w := RunEnd(s, p + 1, IsSpace);
      assert UsdRegexAt(s, p, w, RunEnd(s, w, IsDigitOrComma));
    }
  }

  function UsdGroup(s: string, p: nat): (g: string)
    requires UsdAt(s, p)
    ensures forall k :: 0 <= k < |g| ==> IsDigitOrComma(g[k])
  {
    var w := RunEnd(s, p + 1, IsSpace);
    s[w..RunEnd(s, w, IsDigitOrComma)]
  }

  /** `re.search(r'\$\s*([\d,]+)', balance)`: the match position. */
  function FindUsd(balance: string): (r: Option<nat>)
    ensures r.None? <==> forall p :: 0 <= p <= |balance| ==> !UsdAt(balance, p)
    ensures r.Some? ==> UsdAt(balance, r.value) && forall q :: 0 <= q < r.value ==> !UsdAt(balance, q)
  {
    var matches := (p: nat) => UsdAt(balance, p);
    assert forall p: nat :: matches(p) == UsdAt(balance, p);
    Leftmost(balance, 0, matches)
  }

  /** `extract_usd_amount`: the comma-stripped digits after the leftmost `$`
      that whitespace and a digit or comma follow; `None` when there is none. */
  function ExtractUsdAmount(balance: string): (r: Result<Option<nat>, PyError>)
    ensures r == Success(None) <==> forall p :: 0 <= p <= |balance| ==> !UsdAt(balance, p)
  {
    match FindUsd(balance)
    case None => Success(None)
    case Some(p) => Found(NumberOf(UsdGroup(balance, p)))
  }

  /** The value `extract_usd_amount` returns, stated on the pattern's own
      semantics: when `\$\s*([\d,]+)` matches at `p` and at no earlier
      position, and `[w, q)` is the longest group the pattern allows there
      (greedy `[\d,]+`), the result is that group's digits read in order, or
      `ValueError` when the group is commas only. */
  lemma ExtractUsdAmountValue(b: string, p: nat, w: nat, q: nat)
    requires UsdRegexAt(b, p, w, q)
    requires forall q': nat :: UsdRegexAt(b, p, w, q') ==> q' <= q
    requires forall p': nat, w': nat, q': nat :: p' < p ==> !UsdRegexAt(b, p', w', q')
    ensures ExtractUsdAmount(b) ==
              if CommasOnly(b[w..q]) then Failure(ValueError) else Success(Some(GroupValue(b[w..q])))
  {
    forall p': nat | p' < p ensures !UsdAt(b, p') {
      if p' < |b| {
        UsdAtIsRegexMatch(b, p');
      }
    }
    UsdAtIsRegexMatch(b, p);
    assert UsdAt(b, p);
    assert FindUsd(b) == Some(p);
    var e := RunEnd(b, w, IsDigitOrComma);
    assert UsdRegexAt(b, p, w, e);
    assert UsdGroup(b, p) == b[w..q];
  }

  // ---- extract_wallet_name: `wallet:\s*([^B]+)` --------------------------

  const WalletMarker := "wallet:"

  /** The pattern's own semantics at `p`: the marker, a whitespace run
      `[p+7, w)` and a non-`B` group `[w, e)`, for some `w` and `e`. */
  predicate WalletRegexAt(s: string, p: nat, w: nat, e: nat) {
    && OccursAt(s, p, WalletMarker)
    && p + 7 <= w < e <= |s|
    && (forall k :: p + 7 <= k < w ==> IsSpace(s[k]))
    && (forall k :: w <= k < e ==> IsNotB(s[k]))
  }

  /** The scanner: the marker followed by a character other than `B`. */
  predicate WalletAt(s: string, p: nat) {
    OccursAt(s, p, WalletMarker) && p + 7 < |s| && IsNotB(s[p + 7])
  }

  /** Whitespace is not `B`, so the pattern matches at `p` iff the marker
      is followed by at least one non-`B` character. */
  lemma WalletAtIsRegexMatch(s: string, p: nat)
    ensures WalletAt(s, p) <==> exists w: nat, e: nat :: WalletRegexAt(s, p, w, e)
  {
    if WalletAt(s, p) {
      assert WalletRegexAt(s, p, p + 7, p + 8);
    }
    forall w: nat, e: nat | WalletRegexAt(s, p, w, e) ensures IsNotB(s[p + 7]) {
      if p + 7 < w {
        assert IsSpace(s[p + 7]);
      }
    }
  }

  /** The group Python's engine captures at `p`: greedy `\s*` takes all
      whitespace, then greedy `[^B]+` the non-`B` run after it; when that run
      would be empty the engine backtracks and `\s*` gives its last
      whitespace character back to the group. */
  function WalletGroup(s: string, p: nat): (g: string)
    requires WalletAt(s, p)
    ensures |g| > 0
    ensures exists w: nat, e: nat :: WalletRegexAt(s, p, w, e) && g == s[w..e] && (e == |s| || !IsNotB(s[e]))
  {
    var w := RunEnd(s, p + 7, IsSpace);
    if w < |s| && IsNotB(s[w]) then
      var e := RunEnd(s, w, IsNotB);
      assert WalletRegexAt(s, p, w, e);
      s[w..e]
    else
      assert w > p + 7;
      assert IsSpace(s[w - 1]);
      assert WalletRegexAt(s, p, w - 1, w);
      s[w - 1..w]
  }

  /** `re.search(r'wallet:\s*([^B]+)', address)`: the match position. */
  function FindWallet(address: string): (r: Option<nat>)
    ensures r.None? <==> forall p :: 0 <= p <= |address| ==> !WalletAt(address, p)
    ensures r.Some? ==> WalletAt(address, r.value) && forall q :: 0 <= q < r.value ==> !WalletAt(address, q)
  {
    var matches := (p: nat) => WalletAt(address, p);
    assert forall p: nat :: matches(p) == WalletAt(address, p);
    Leftmost(address, 0, matches)
  }

  /** `extract_wallet_name`: the stripped group at the leftmost match. */
  function ExtractWalletName(address: string): (r: Option<string>)
    ensures r.None? <==> forall p :: 0 <= p <= |address| ==> !WalletAt(address, p)
  {
    match FindWallet(address)
    case None => None
    case Some(p) => Some(Strip(WalletGroup(address, p)))
  }

  /** Stripping Python's group gives the stripped maximal non-`B` run after
      the marker, whichever way the engine split it. */
  lemma WalletGroupStrips(s: string, p: nat)
    requires WalletAt(s, p)
    ensures Strip(WalletGroup(s, p)) == Strip(s[p + 7..RunEnd(s, p + 7, IsNotB)])
  {
    var w := RunEnd(s, p + 7, IsSpace);
    if w < |s| && IsNotB(s[w]) {
      GroupAfterSpaceStrips(s, p + 7, w);
    } else {
      GivenBackSpaceStrips(s, p + 7, w);
    }
  }

  /** When a non-`B` character follows the whitespace, the group is the
      non-`B` run after it, and the skipped whitespace strips away. */
  lemma GroupAfterSpaceStrips(s: string, st: nat, w: nat)
    requires st <= |s| && w == RunEnd(s, st, IsSpace) && w < |s| && IsNotB(s[w])
    ensures Strip(s[w..RunEnd(s, w, IsNotB)]) == Strip(s[st..RunEnd(s, st, IsNotB)])
  {
    var e := RunEnd(s, st, IsNotB);
    var e' := RunEnd(s, w, IsNotB);
    RunEndAtLeast(s, st, IsNotB, w);
    RunEndAtLeast(s, w, IsNotB, e);
    RunEndAtLeast(s, st, IsNotB, e');
    assert s[st..e] == s[st..w] + s[w..e'];
    StripSkipsLeadingSpace(s[st..w], s[w..e']);
  }

  /** When `B` or the end follows the whitespace, the non-`B` run after the
      marker is that whitespace, and the one character given back strips
      to nothing as well. */
  lemma GivenBackSpaceStrips(s: string, st: nat, w: nat)
    requires st < w <= |s| && w == RunEnd(s, st, IsSpace) && !(w < |s| && IsNotB(s[w]))
    ensures Strip(s[w - 1..w]) == Strip(s[st..RunEnd(s, st, IsNotB)])
  {
    var e := RunEnd(s, st, IsNotB);
    RunEndAtLeast(s, st, IsNotB, w);
    assert e == w;
    AllSpaceStripsToEmpty(s[st..e]);
    AllSpaceStripsToEmpty(s[w - 1..w]);
  }

  /** The maximal non-`B` run from `st` holds no `B`. */
  lemma NonBRunHasNoB(s: string, st: nat)
    requires st <= |s|
    ensures 'B' !in s[st..RunEnd(s, st, IsNotB)]
  {
    var e := RunEnd(s, st, IsNotB);
    forall k | st <= k < e ensures s[k] != 'B' {
      assert IsNotB(s[k]);
    }
  }

  /** The wallet name, when present, is the stripped non-`B` text after the
      leftmost `wallet:` that a non-`B` character follows: it contains no
      `B` and has no whitespace at either end. */
  lemma WalletNameSpec(address: string)
    requires FindWallet(address).Some?
    ensures var p := FindWallet(address).value;
            var n := ExtractWalletName(address).value;
            && n == Strip(address[p + 7..RunEnd(address, p + 7, IsNotB)])
            && 'B' !in n
            && (|n| == 0 || (!IsSpace(n[0]) && !IsSpace(n[|n| - 1])))
  {
    var p := FindWallet(address).value;
    var run := address[p + 7..RunEnd(address, p + 7, IsNotB)];
    WalletGroupStrips(address, p);
    assert ExtractWalletName(address).value == Strip(run);
    StripEnds(run);
    NonBRunHasNoB(address, p + 7);
    StripAddsNothing(run, 'B');
  }

  /** The wallet name as written stops at the first capital `B`: a name
      that starts with one comes out empty. */
  lemma WalletNameStopsAtB(n: string)
    requires |n| > 0 && n[0] == 'B'
    ensures ExtractWalletName(WalletMarker + " " + n) == Some("")
  {
    var s := WalletMarker + " " + n;
    assert s[..7] == WalletMarker && s[7] == ' ' && s[8] == 'B';
    assert WalletAt(s, 0);
    assert FindWallet(s) == Some(0);
    assert RunEnd(s, 8, IsSpace) == 8;
    assert RunEnd(s, 7, IsSpace) == 8;
    assert WalletGroup(s, 0) == s[7..8];
    AllSpaceStripsToEmpty(s[7..8]);
  }

  const BalanceUnit := "BTC"

  /** The reading the pattern was meant to have: after the leftmost
      `wallet:`, the text up to the next `BTC` (or to the end), stripped. */
  function FindMarker(address: string): (r: Option<nat>)
    ensures r.None? <==> forall p :: 0 <= p <= |address| ==> !OccursAt(address, p, WalletMarker)
    ensures r.Some? ==> && OccursAt(address, r.value, WalletMarker)
                        && forall q :: 0 <= q < r.value ==> !OccursAt(address, q, WalletMarker)
  {
    var matches := (p: nat) => OccursAt(address, p, WalletMarker);
    assert forall p: nat :: matches(p) == OccursAt(address, p, WalletMarker);
    Leftmost(address, 0, matches)
  }

  /** Where the name that starts at `from` ends: the next `BTC`, or the end. */
  function NameEnd(address: string, from: nat): (e: nat)
    requires from <= |address|
    ensures from <= e <= |address|
    ensures forall q :: from <= q < e ==> !OccursAt(address, q, BalanceUnit)
    ensures e == |address| || OccursAt(address, e, BalanceUnit)
  {
    var matches := (q: nat) => OccursAt(address, q, BalanceUnit);
    assert forall q: nat :: matches(q) == OccursAt(address, q, BalanceUnit);
    match Leftmost(address, from, matches)
    case None => |address|
    case Some(q) => q
  }

  /** The corrected `extract_wallet_name`. */
  function ExtractWalletNameToUnit(address: string): (r: Option<string>)
    ensures r.None? <==> forall p :: 0 <= p <= |address| ==> !OccursAt(address, p, WalletMarker)
  {
    match FindMarker(address)
    case None => None
    case Some(p) => Some(Strip(address[p + 7..NameEnd(address, p + 7)]))
  }

  /** The text a corrected name is cut from holds no unit token. */
  lemma NameSegmentAvoidsUnit(address: string, from: nat)
    requires from <= |address|
    ensures var seg := address[from..NameEnd(address, from)];
            forall k :: 0 <= k <= |seg| ==> !OccursAt(seg, k, BalanceUnit)
  {
    var e := NameEnd(address, from);
    var seg := address[from..e];
    forall k | 0 <= k <= |seg| ensures !OccursAt(seg, k, BalanceUnit) {
      if OccursAt(seg, k, BalanceUnit) {
        OccursInInfix(address, from, e, k, BalanceUnit);
        assert false;
      }
    }
  }

  /** The corrected name has no whitespace at either end and never contains
      the unit token. */
  lemma WalletNameToUnitSpec(address: string)
    requires ExtractWalletNameToUnit(address).Some?
    ensures var n := ExtractWalletNameToUnit(address).value;
            && (|n| == 0 || (!IsSpace(n[0]) && !IsSpace(n[|n| - 1])))
            && forall k :: 0 <= k <= |n| ==> !OccursAt(n, k, BalanceUnit)
  {
    var p := FindMarker(address).value;
    var n := Strip(address[p + 7..NameEnd(address, p + 7)]);
    assert ExtractWalletNameToUnit(address) == Some(n);
    StrippedNameSpec(address, p + 7);
  }

  lemma StrippedNameSpec(address: string, from: nat)
    requires from <= |address|
    ensures var n := Strip(address[from..NameEnd(address, from)]);
            && (|n| == 0 || (!IsSpace(n[0]) && !IsSpace(n[|n| - 1])))
            && forall k :: 0 <= k <= |n| ==> !OccursAt(n, k, BalanceUnit)
  {
    var seg := address[from..NameEnd(address, from)];
    StripEnds(seg);
    NameSegmentAvoidsUnit(address, from);
    StripKeepsAbsence(seg, BalanceUnit);
  }

  /** Round trip of the corrected extractor: a name without `BTC` in it and
      without whitespace at its ends comes back whole, `B`s included. */
  lemma WalletNameToUnitRoundTrip(n: string)
    requires forall k :: 0 <= k <= |n| ==> !OccursAt(n, k, BalanceUnit)
    requires |n| == 0 || (!IsSpace(n[0]) && !IsSpace(n[|n| - 1]))
    ensures ExtractWalletNameToUnit(WalletMarker + " " + n) == Some(n)
  {
    var s := WalletMarker + " " + n;
    assert s[..7] == WalletMarker;
    assert OccursAt(s, 0, WalletMarker);
    assert FindMarker(s) == Some(0);
    forall q | 7 <= q <= |s| ensures !OccursAt(s, q, BalanceUnit) {
      if q == 7 && q + 3 <= |s| {
        assert s[7] == ' ';
        assert s[q..q + 3][0] == s[7];
      } else if q > 7 && q + 3 <= |s| {
        assert s[q..q + 3] == n[q - 8..q - 5];
        assert !OccursAt(n, q - 8, BalanceUnit);
      }
    }
    assert NameEnd(s, 7) == |s|;
    assert s[7..|s|] == " " + n;
    StripSkipsLeadingSpace(" ", n);
    StripKeepsTrimmed(n);
  }

  /** A text without a `T` cannot hold the unit token. */
  lemma NoTNoUnit(n: string)
    requires 'T' !in n
    ensures forall k :: 0 <= k <= |n| ==> !OccursAt(n, k, BalanceUnit)
  {
    forall k | 0 <= k <= |n| ensures !OccursAt(n, k, BalanceUnit) {
      if k + 3 <= |n| {
        assert n[k..k + 3][1] == n[k + 1];
      }
    }
  }

  /** The name the as-written extractor empties comes through whole. */
  lemma WalletNameToUnitKeepsB()
    ensures ExtractWalletNameToUnit(WalletMarker + " Binance-coldwallet") == Some("Binance-coldwallet")
  {
    var n := "Binance-coldwallet";
    NoTNoUnit(n);
    assert WalletMarker + " " + n == WalletMarker + " Binance-coldwallet";
    WalletNameToUnitRoundTrip(n);
  }
}

=== FILE: filename_timestamp.dfy ===
/** `extract_timestamp_from_filename` of SQlite_start.py: find the first
    `\d{8}_\d{6}` token of a CSV file name, parse it with
    `datetime.strptime(token, '%Y%m%d_%H%M%S')` and return its
    `isoformat()`. main2.py names the files it writes
    `bitcoin_rich_list_<strftime('%Y%m%d_%H%M%S')>.csv`. */
module FilenameTimestamp {
  import opened Wrappers
  import opened Chars

  datatype DateTime = DateTime(year: int, month: int, day: int, hour: int, minute: int, second: int)

  predicate IsLeapYear(y: int) {
    y % 4 == 0 && (y % 100 != 0 || y % 400 == 0)
  }

  function DaysInMonth(y: int, m: int): int
    requires 1 <= m <= 12
  {
    if m == 2 then (if IsLeapYear(y) then 29 else 28)
    else if m == 4 || m == 6 || m == 9 || m == 11 then 30
    else 31
  }

  /** The values `datetime` accepts (seconds up to 59, years from 1). */
  predicate Valid(dt: DateTime) {
    && 1 <= dt.year <= 9999
    && 1 <= dt.month <= 12
    && 1 <= dt.day <= DaysInMonth(dt.year, dt.month)
    && 0 <= dt.hour <= 23
    && 0 <= dt.minute <= 59
    && 0 <= dt.second <= 59
  }

  /** `\d{8}_\d{6}` matches at `p`. */
  predicate TokenAt(s: string, p: nat) {
    p + 15 <= |s| && AllDigits(s[p..p + 8]) && s[p + 8] == '_' && AllDigits(s[p + 9..p + 15])
  }

  /** `re.search(r'(\d{8}_\d{6})', filename)`: the match position. */
  function FindToken(name: string): (r: Option<nat>)
    ensures r.None? <==> forall p :: 0 <= p <= |name| ==> !TokenAt(name, p)
    ensures r.Some? ==> TokenAt(name, r.value) && forall q :: 0 <= q < r.value ==> !TokenAt(name, q)
  {
    var matches := (p: nat) => TokenAt(name, p);
    assert forall p: nat :: matches(p) == TokenAt(name, p);
    Leftmost(name, 0, matches)
  }

  /** A two-digit field. */
  function Num2(a: char, b: char): (n: nat)
    requires IsDigit(a) && IsDigit(b)
    ensures n < 100
  {
    10 * DigitValue(a) + DigitValue(b)
  }

  /** The fields `strptime` reads from a token: with every field at most two
      digits wide and the year four, the layout `YYYYmmdd_HHMMSS` is forced. */
  function Fields(tok: string): DateTime
    requires TokenAt(tok, 0)
  {
    assert forall k :: 0 <= k < 8 ==> IsDigit(tok[..8][k]);
    assert forall k :: 0 <= k < 6 ==> IsDigit(tok[9..15][k]);
    DateTime(
      100 * Num2(tok[0], tok[1]) + Num2(tok[2], tok[3]),
      Num2(tok[4], tok[5]),
      Num2(tok[6], tok[7]),
      Num2(tok[9], tok[10]),
      Num2(tok[11], tok[12]),
      Num2(tok[13], tok[14]))
  }

  /** `%02d`. */
  function Pad2(n: nat): (s: string)
    requires n < 100
    ensures |s| == 2 && IsDigit(s[0]) && IsDigit(s[1]) && Num2(s[0], s[1]) == n
  {
    [DigitChar(n / 10), DigitChar(n % 10)]
  }

  /** `%04d`. */
  function Pad4(n: nat): (s: string)
    requires n < 10000
    ensures |s| == 4 && AllDigits(s) && 100 * Num2(s[0], s[1]) + Num2(s[2], s[3]) == n
  {
    Pad2(n / 100) + Pad2(n % 100)
  }

  /** `datetime.isoformat()` with no microseconds: `YYYY-MM-DDTHH:MM:SS`. */
  function IsoFormat(dt: DateTime): string
    requires Valid(dt)
  {
    Pad4(dt.year) + "-" + Pad2(dt.month) + "-" + Pad2(dt.day)
    + "T" + Pad2(dt.hour) + ":" + Pad2(dt.minute) + ":" + Pad2(dt.second)
  }

  /** `strftime('%Y%m%d_%H%M%S')` for a four-digit year. */
  function CompactFormat(dt: DateTime): (s: string)
    requires Valid(dt) && dt.year >= 1000
    ensures |s| == 15 && TokenAt(s, 0) && Fields(s) == dt
  {
    var s := Pad4(dt.year) + Pad2(dt.month) + Pad2(dt.day) + "_" + Pad2(dt.hour) + Pad2(dt.minute) + Pad2(dt.second);
    assert s[..8] == Pad4(dt.year) + Pad2(dt.month) + Pad2(dt.day);
    assert s[9..15] == Pad2(dt.hour) + Pad2(dt.minute) + Pad2(dt.second);
    s
  }

  /** The fields of the token at `p`. */
  function TokenFields(name: string, p: nat): DateTime
    requires TokenAt(name, p)
  {
    var tok := name[p..p + 15];
    assert tok[..8] == name[p..p + 8] && tok[9..15] == name[p + 9..p + 15];
    Fields(tok)
  }

  /** `extract_timestamp_from_filename`: `None` when there is no token,
      `ValueError` when `strptime` rejects it, otherwise the ISO form. */
  function ExtractTimestampFromFilename(name: string): (r: Result<Option<string>, PyError>)
    ensures r == Success(None) <==> forall p :: 0 <= p <= |name| ==> !TokenAt(name, p)
    ensures r.Failure? <==> FindToken(name).Some? && !Valid(TokenFields(name, FindToken(name).value))
  {
    match FindToken(name)
    case None => Success(None)
    case Some(p) =>
      var dt := TokenFields(name, p);
      if Valid(dt) then Success(Some(IsoFormat(dt))) else Failure(ValueError)
  }

  /** A digit re-rendered from its value is itself. */
  lemma Pad2OfDigits(a: char, b: char)
    requires IsDigit(a) && IsDigit(b)
    ensures Pad2(Num2(a, b)) == [a, b]
  {
    var n := Num2(a, b);
    assert n / 10 == DigitValue(a) && n % 10 == DigitValue(b);
  }

  /** The ISO form of a valid token only rearranges its digits:
      `YYYYmmdd_HHMMSS` becomes `YYYY-mm-ddTHH:MM:SS`. */
  lemma IsoOfToken(t: string)
    requires TokenAt(t, 0) && Valid(Fields(t))
    ensures IsoFormat(Fields(t))
              == t[0..4] + "-" + t[4..6] + "-" + t[6..8] + "T" + t[9..11] + ":" + t[11..13] + ":" + t[13..15]
  {
    assert forall k :: 0 <= k < 8 ==> IsDigit(t[..8][k]);
    assert forall k :: 0 <= k < 6 ==> IsDigit(t[9..15][k]);
    var dt := Fields(t);
    Pad2OfDigits(t[0], t[1]);
    Pad2OfDigits(t[2], t[3]);
    Pad2OfDigits(t[4], t[5]);
    Pad2OfDigits(t[6], t[7]);
    Pad2OfDigits(t[9], t[10]);
    Pad2OfDigits(t[11], t[12]);
    Pad2OfDigits(t[13], t[14]);
    assert dt.year / 100 == Num2(t[0], t[1]) && dt.year % 100 == Num2(t[2], t[3]);
    assert t[0..4] == [t[0], t[1]] + [t[2], t[3]];
    assert t[4..6] == [t[4], t[5]] && t[6..8] == [t[6], t[7]];
    assert t[9..11] == [t[9], t[10]] && t[11..13] == [t[11], t[12]] && t[13..15] == [t[13], t[14]];
  }

  /** What the extractor returns is the token found, rearranged. */
  lemma ExtractRearrangesToken(name: string)
    requires ExtractTimestampFromFilename(name).Success?
    requires ExtractTimestampFromFilename(name).value.Some?
    ensures var p := FindToken(name).value;
            var t := name[p..p + 15];
            ExtractTimestampFromFilename(name).value.value
              == t[0..4] + "-" + t[4..6] + "-" + t[6..8] + "T" + t[9..11] + ":" + t[11..13] + ":" + t[13..15]
  {
    var p := FindToken(name).value;
    var t := name[p..p + 15];
    assert t[..8] == name[p..p + 8] && t[9..15] == name[p + 9..p + 15];
    IsoOfToken(t);
  }

  const FilePrefix := "bitcoin_rich_list_"

  /** Round trip: the name main2.py gives a CSV file written at `dt` yields
      `dt` in ISO form. */
  lemma FilenameRoundTrip(dt: DateTime)
    requires Valid(dt) && dt.year >= 1000
    ensures ExtractTimestampFromFilename(FilePrefix + CompactFormat(dt) + ".csv") == Success(Some(IsoFormat(dt)))
  {
    var c := CompactFormat(dt);
    var name := FilePrefix + c + ".csv";
    assert name[18..33] == c;
    assert name[18..26] == c[..8] && name[27..33] == c[9..15];
    assert TokenAt(name, 18);
    forall q | 0 <= q < 18 ensures !TokenAt(name, q) {
      assert name[q] == FilePrefix[q];
      assert !IsDigit(name[q]);
      assert q + 15 <= |name| ==> name[q..q + 8][0] == name[q];
    }
  }
}

=== FILE: fixed_offset.dfy ===
/** `main` of lekerdezes.py: walk from the earliest to the latest capture
    time in fixed three-hour steps and compare each visited time `t` with
    `t + 3h`. */
module FixedOffset {
  import opened Wrappers
  import opened Snapshot
  import opened Report
  import opened Timeline

  /** `timedelta(hours=3)` in seconds. */
  const ThreeHours: int := 10800

  /** The pairs `(t, t + step)` for the times `t` that
      `while current_time <= end_time` visits, starting at `current`. */
  function GridPairs(current: int, end: int, step: int): (r: seq<(int, int)>)
    requires step > 0
    ensures current <= end <==> |r| > 0
    ensures forall k :: 0 <= k < |r| ==> r[k].0 == current + k * step && r[k].1 == r[k].0 + step
    ensures forall k :: 0 <= k < |r| ==> r[k].0 <= end
    ensures |r| > 0 ==> end < r[|r| - 1].0 + step
    decreases end - current + step
  {
    if current <= end then
      var rest := GridPairs(current + step, end, step);
      assert forall k :: 0 <= k < |rest| ==> rest[k].0 == current + (k + 1) * step by {
        forall k | 0 <= k < |rest| ensures rest[k].0 == current + (k + 1) * step {
          assert (k + 1) * step == k * step + step;
        }
      }
      [(current, current + step)] + rest
    else []
  }

  /** One iteration of the walk: visit `current`, continue at `current + 3h`. */
  lemma GridPairsStep(current: int, end: int)
    requires current <= end
    ensures GridPairs(current, end, ThreeHours)
         == [(current, current + ThreeHours)] + GridPairs(current + ThreeHours, end, ThreeHours)
  {
  }

  /** The walk from `lo` to `hi` makes exactly `floor((hi - lo) / 3h) + 1`
      iterations, and the last visited time is at most `hi`. */
  lemma ThreeHourIterations(lo: int, hi: int)
    requires lo <= hi
    ensures |GridPairs(lo, hi, ThreeHours)| == (hi - lo) / ThreeHours + 1
  {
    var r := GridPairs(lo, hi, ThreeHours);
    var n := |r|;
    assert r[n - 1].0 == lo + (n - 1) * ThreeHours;
    assert lo + (n - 1) * ThreeHours <= hi < lo + n * ThreeHours;
  }

  /** Time `t` lies on the three-hour grid from `lo` up to `hi`. */
  predicate OnGrid(lo: int, hi: int, t: int) {
    lo <= t <= hi && (t - lo) % ThreeHours == 0
  }

  /** The sections lekerdezes.py prints, or `None` when the table is empty:
      `MIN(timestamp)` is then NULL and `datetime.fromisoformat` raises. */
  function ThreeHourReport<T(==)>(store: Store<T>): (r: Option<seq<Section<T>>>)
    ensures r.None? <==> store == map[]
  {
    if store.Keys == {} then
      assert store == map[];
      None
    else
      var ts := SortedKeys(store.Keys);
      Some(ReportPairs(store, GridPairs(ts[0], ts[|ts| - 1], ThreeHours)))
  }

  /** The `k`-th visited time lies on the grid and is paired with exactly
      three hours later. */
  lemma GridPairOnGrid(lo: int, hi: int, k: nat)
    requires k < |GridPairs(lo, hi, ThreeHours)|
    ensures var p := GridPairs(lo, hi, ThreeHours)[k];
            OnGrid(lo, hi, p.0) && OnGrid(lo, hi + ThreeHours, p.1) && p.1 == p.0 + ThreeHours
  {
    var p := GridPairs(lo, hi, ThreeHours)[k];
    assert p.0 - lo == k * ThreeHours;
    assert p.1 - lo == (k + 1) * ThreeHours;
  }

  /** Every grid time up to `hi` is visited, at the position its offset
      from `lo` gives. */
  lemma GridIndex(lo: int, hi: int, t: int) returns (k: nat)
    requires OnGrid(lo, hi, t)
    ensures k < |GridPairs(lo, hi, ThreeHours)| && GridPairs(lo, hi, ThreeHours)[k] == (t, t + ThreeHours)
  {
    var ps := GridPairs(lo, hi, ThreeHours);
    var n := |ps|;
    k := (t - lo) / ThreeHours;
    assert t == lo + k * ThreeHours;
    assert hi < lo + n * ThreeHours by {
      assert ps[n - 1].0 == lo + (n - 1) * ThreeHours;
    }
  }

  /** `lo` and `hi` are the earliest and the latest capture time. */
  predicate Spans<T>(store: Store<T>, lo: int, hi: int) {
    lo in store && hi in store && forall t :: t in store ==> lo <= t <= hi
  }

  /** The sorted capture times start at the earliest and end at the latest. */
  lemma SortedKeysEnds<T>(store: Store<T>, lo: int, hi: int)
    requires Spans(store, lo, hi)
    ensures var ts := SortedKeys(store.Keys); |ts| > 0 && ts[0] == lo && ts[|ts| - 1] == hi
  {
    var ts := SortedKeys(store.Keys);
    var i :| 0 <= i < |ts| && ts[i] == lo;
    var j :| 0 <= j < |ts| && ts[j] == hi;
    assert ts[0] in store && ts[|ts| - 1] in store;
    AscendingIndexOrder(ts, 0, i);
    AscendingIndexOrder(ts, j, |ts| - 1);
  }

  /** A non-empty table is walked from its earliest to its latest time. */
  lemma ThreeHourReportWalks<T>(store: Store<T>, lo: int, hi: int)
    requires Spans(store, lo, hi)
    ensures ThreeHourReport(store) == Some(ReportPairs(store, GridPairs(lo, hi, ThreeHours)))
  {
    SortedKeysEnds(store, lo, hi);
  }

  /** Every printed section compares a time on the three-hour grid from the
      earliest capture time with exactly that time plus three hours, both
      snapshots non-empty and differing. */
  lemma ThreeHourReportSound<T>(store: Store<T>, lo: int, hi: int)
    requires Spans(store, lo, hi)
    ensures ThreeHourReport(store).Some?
    ensures forall s :: s in ThreeHourReport(store).value ==>
              && OnGrid(lo, hi, s.from)
              && s.to == s.from + ThreeHours
              && Reportable(store, (s.from, s.to))
              && s == SectionFor(store, (s.from, s.to))
  {
    ThreeHourReportWalks(store, lo, hi);
    forall s | s in ThreeHourReport(store).value
      ensures && OnGrid(lo, hi, s.from)
              && s.to == s.from + ThreeHours
              && Reportable(store, (s.from, s.to))
              && s == SectionFor(store, (s.from, s.to))
    {
      WalkedSectionOnGrid(store, lo, hi, s);
    }
  }

  /** One printed section of the walk from `lo` to `hi`. */
  lemma WalkedSectionOnGrid<T>(store: Store<T>, lo: int, hi: int, s: Section<T>)
    requires s in ReportPairs(store, GridPairs(lo, hi, ThreeHours))
    ensures OnGrid(lo, hi, s.from) && s.to == s.from + ThreeHours
    ensures Reportable(store, (s.from, s.to)) && s == SectionFor(store, (s.from, s.to))
  {
    var ps := GridPairs(lo, hi, ThreeHours);
    var secs := ReportPairs(store, ps);
    var i :| 0 <= i < |secs| && secs[i] == s;
    var k :| 0 <= k < |ps| && ps[k] == (s.from, s.to);
    GridPairOnGrid(lo, hi, k);
  }

  /** Every grid time `t` whose snapshot and the one at `t + 3h` are both
      non-empty and differ gets its section. */
  lemma ThreeHourReportComplete<T>(store: Store<T>, lo: int, hi: int, t: int)
    requires Spans(store, lo, hi)
    requires OnGrid(lo, hi, t) && Reportable(store, (t, t + ThreeHours))
    ensures ThreeHourReport(store).Some?
    ensures SectionFor(store, (t, t + ThreeHours)) in ThreeHourReport(store).value
  {
    var ps := GridPairs(lo, hi, ThreeHours);
    var k := GridIndex(lo, hi, t);
    ReportedIfReportable(store, ps, k);
    ThreeHourReportWalks(store, lo, hi);
  }

  /** A reportable pair of the walk gets its section. */
  lemma ReportedIfReportable<T>(store: Store<T>, ps: seq<(int, int)>, k: nat)
    requires k < |ps| && Reportable(store, ps[k])
    ensures SectionFor(store, ps[k]) in ReportPairs(store, ps)
  {
  }

  /** Printed sections ascend in time. */
  lemma ThreeHourReportAscending<T>(store: Store<T>)
    requires store != map[]
    ensures forall i, j :: 0 <= i < j < |ThreeHourReport(store).value| ==>
              ThreeHourReport(store).value[i].from < ThreeHourReport(store).value[j].from
  {
    var ts := SortedKeys(store.Keys);
    var ps := GridPairs(ts[0], ts[|ts| - 1], ThreeHours);
    ReportPairsOrdered(store, ps);
  }

  /** Snapshots off the three-hour grid are never read: two stores with the
      same capture times that agree on every grid time (including one step
      past the latest) print the same report. */
  lemma OffGridNeverRead<T>(store: Store<T>, store': Store<T>, lo: int, hi: int)
    requires Spans(store, lo, hi)
    requires store'.Keys == store.Keys
    requires forall t :: OnGrid(lo, hi + ThreeHours, t) ==> Lookup(store, t) == Lookup(store', t)
    ensures ThreeHourReport(store) == ThreeHourReport(store')
  {
    ThreeHourReportWalks(store, lo, hi);
    assert Spans(store', lo, hi);
    ThreeHourReportWalks(store', lo, hi);
    var ps := GridPairs(lo, hi, ThreeHours);
    forall j | 0 <= j < |ps|
      ensures Lookup(store, ps[j].0) == Lookup(store', ps[j].0)
      ensures Lookup(store, ps[j].1) == Lookup(store', ps[j].1)
    {
      GridPairOnGrid(lo, hi, j);
    }
    ReportPairsReadsOnlyEnds(store, store', ps);
  }

  /** One iteration of the loop consumes the next grid pair and appends at
      most its section. */
  lemma WalkStep<T>(store: Store<T>, all: seq<(int, int)>, i: nat, current: int, end: int)
    requires current <= end
    requires i <= |all| && GridPairs(current, end, ThreeHours) == all[i..]
    ensures i < |all| && all[i] == (current, current + ThreeHours)
    ensures GridPairs(current + ThreeHours, end, ThreeHours) == all[i + 1..]
    ensures ReportPairs(store, all[..i + 1])
         == ReportPairs(store, all[..i])
          + (if Reportable(store, all[i]) then [SectionFor(store, all[i])] else [])
  {
    GridPairsStep(current, end);
    assert all[i] == all[i..][0];
    assert all[i + 1..] == all[i..][1..];
    ReportPairsSnoc(store, all, i);
  }

  /** The imperative `while current_time <= end_time` loop: it makes
      `floor((end - start) / 3h) + 1` iterations when `start <= end` and
      prints the sections of the grid pairs. */
  method ReportEveryThreeHours<T(==)>(store: Store<T>, start: int, end: int)
    returns (sections: seq<Section<T>>, iterations: nat)
    ensures iterations == if start <= end then (end - start) / ThreeHours + 1 else 0
    ensures sections == ReportPairs(store, GridPairs(start, end, ThreeHours))
  {
    ghost var all := GridPairs(start, end, ThreeHours);
    sections := [];
    iterations := 0;
    var current := start;
    while current <= end
      invariant iterations <= |all|
      invariant GridPairs(current, end, ThreeHours) == all[iterations..]
      invariant sections == ReportPairs(store, all[..iterations])
      decreases end - current + ThreeHours
    {
      var next := current + ThreeHours;
      WalkStep(store, all, iterations, current, end);
      var written := ReportPair(store, current, next);
      sections := sections + written;
      current := next;
      iterations := iterations + 1;
    }
    WalkDone(all, iterations, start, current, end);
  }

  /** When the walk stops it has consumed every grid pair, one per
      iteration. */
  lemma WalkDone(all: seq<(int, int)>, i: nat, start: int, current: int, end: int)
    requires all == GridPairs(start, end, ThreeHours)
    requires i <= |all| && GridPairs(current, end, ThreeHours) == all[i..] && current > end
    ensures all[..i] == all
    ensures i == if start <= end then (end - start) / ThreeHours + 1 else 0
  {
    if start <= end {
      ThreeHourIterations(start, end);
    }
  }
}



=== FILE: render.dfy ===
/** The text both programs write for a report: the HTML fragment of
    main.py `generate_report` and the console lines of lekerdezes.py
    `main`. How a capture time and an `ins`/`outs` value print is a
    parameter (`showTime`, `show`); Python's `None` prints as `None`. */
module Render {
  import opened Wrappers
  import opened Chars
  import opened Snapshot
  import opened Report

  /** `str(n)` for a natural number. */
  function NatToString(n: nat): (s: string)
    ensures |s| > 0 && AllDigits(s) && DecimalValue(s) == n
    ensures |s| > 1 ==> s[0] != '0'
  {
    if n < 10 then [DigitChar(n)]
    else
      var h := NatToString(n / 10);
      var s := h + [DigitChar(n % 10)];
      assert s[..|s| - 1] == h;
      s
  }

  /** `str(i)` for an integer rank. */
  function IntToString(i: int): string {
    if i < 0 then "-" + NatToString(-i) else NatToString(i)
  }

  /** An f-string field holding `None` or a value. */
  function ShowOption<T>(o: Option<T>, show: T -> string): string {
    match o
    case None => "None"
    case Some(v) => show(v)
  }

  function Identity(s: string): string { s }

  function ShowTransition<T>(t: Transition<T>, show: T -> string): string {
    ShowOption(t.before, show) + " -> " + ShowOption(t.after, show)
  }

  const InsLabel := "INS v\U{E1}ltoz\U{E1}s: "
  const OutsLabel := "OUTS v\U{E1}ltoz\U{E1}s: "
  const WalletLabel := "Wallet n\U{E9}v: "

  // ---- main.py: the HTML fragment -------------------------------------

  function HtmlBlock<T>(b: Block<T>, show: T -> string): string {
    "<p>Rank: " + IntToString(b.rank) + ", Address: " + b.address + "<br>"
    + (if b.ins.Some? then InsLabel + ShowTransition(b.ins.value, show) + "<br>" else "")
    + (if b.outs.Some? then OutsLabel + ShowTransition(b.outs.value, show) + "<br>" else "")
    + WalletLabel + ShowOption(b.wallet, Identity) + "</p>"
    + "<hr>"
  }

  function HtmlBlocks<T>(bs: seq<Block<T>>, show: T -> string): string {
    if |bs| == 0 then "" else HtmlBlock(bs[0], show) + HtmlBlocks(bs[1..], show)
  }

  /** The `<h2>` header naming a section's two capture times. */
  function HtmlHeader<T>(s: Section<T>, showTime: int -> string): string {
    "<h2>V\U{E1}ltoz\U{E1}sok " + showTime(s.from) + " \U{E9}s " + showTime(s.to) + " k\U{F6}z\U{F6}tt:</h2>"
  }

  function HtmlSection<T>(s: Section<T>, showTime: int -> string, show: T -> string): string {
    HtmlHeader(s, showTime) + HtmlBlocks(s.blocks, show)
  }

  /** The `output.getvalue()` of `generate_report`: it opens with the header
      of the first section. */
  function Html<T>(sections: seq<Section<T>>, showTime: int -> string, show: T -> string): (r: string)
    ensures sections != [] ==> HtmlHeader(sections[0], showTime) <= r
  {
    if |sections| == 0 then ""
    else
      var h := HtmlSection(sections[0], showTime, show);
      assert HtmlHeader(sections[0], showTime) <= h;
      h + Html(sections[1..], showTime, show)
  }

  /** The fragment is empty exactly when there is no section. */
  lemma HtmlEmptyIff<T>(sections: seq<Section<T>>, showTime: int -> string, show: T -> string)
    ensures Html(sections, showTime, show) == "" <==> sections == []
  {
    if |sections| > 0 {
      var h := HtmlSection(sections[0], showTime, show);
      assert h[0] == '<';
      assert |Html(sections, showTime, show)| >= |h| > 0;
    }
  }

  /** The fragment of a report is the concatenation of its sections'. */
  lemma {:induction false} HtmlAppend<T>(a: seq<Section<T>>, b: seq<Section<T>>, showTime: int -> string, show: T -> string)
    ensures Html(a + b, showTime, show) == Html(a, showTime, show) + Html(b, showTime, show)
    decreases |a|
  {
    if |a| == 0 {
      assert a + b == b;
    } else {
      assert (a + b)[0] == a[0];
      assert (a + b)[1..] == a[1..] + b;
      HtmlAppend(a[1..], b, showTime, show);
    }
  }

  /** Section `k` is written right after the fragments of the sections
      before it: the output up to there is theirs, and section `k`'s header
      starts there. */
  lemma HtmlSectionAt<T>(sections: seq<Section<T>>, k: nat, showTime: int -> string, show: T -> string)
    requires k < |sections|
    ensures |Html(sections[..k], showTime, show)| <= |Html(sections, showTime, show)|
    ensures Html(sections, showTime, show)[..|Html(sections[..k], showTime, show)|] == Html(sections[..k], showTime, show)
    ensures HtmlHeader(sections[k], showTime) <= Html(sections, showTime, show)[|Html(sections[..k], showTime, show)|..]
  {
    assert sections == sections[..k] + sections[k..];
    HtmlAppend(sections[..k], sections[k..], showTime, show);
    assert sections[k..][0] == sections[k];
  }

  // ---- lekerdezes.py: the console output --------------------------------

  /** `print(x)` writes `x` and a newline. */
  function Line(s: string): string { s + "\n" }

  const Rule := seq(50, _ => '-')

  function ConsoleBlock<T>(b: Block<T>, show: T -> string): string {
    Line("Rank: " + IntToString(b.rank) + ", Address: " + b.address)
    + (if b.ins.Some? then Line(InsLabel + ShowTransition(b.ins.value, show)) else "")
    + (if b.outs.Some? then Line(OutsLabel + ShowTransition(b.outs.value, show)) else "")
    + Line(WalletLabel + ShowOption(b.wallet, Identity))
    + Line(Rule)
  }

  function ConsoleBlocks<T>(bs: seq<Block<T>>, show: T -> string): string {
    if |bs| == 0 then "" else ConsoleBlock(bs[0], show) + ConsoleBlocks(bs[1..], show)
  }

  /** The header line naming a section's two capture times, after an
      empty line. */
  function ConsoleHeader<T>(s: Section<T>, showTime: int -> string): string {
    Line("\nV\U{E1}ltoz\U{E1}sok " + showTime(s.from) + " \U{E9}s " + showTime(s.to) + " k\U{F6}z\U{F6}tt:")
  }

  function ConsoleSection<T>(s: Section<T>, showTime: int -> string, show: T -> string): string {
    ConsoleHeader(s, showTime) + ConsoleBlocks(s.blocks, show)
  }

  /** Everything lekerdezes.py prints: it opens with the header of the first
      section. */
  function Console<T>(sections: seq<Section<T>>, showTime: int -> string, show: T -> string): (r: string)
    ensures sections != [] ==> ConsoleHeader(sections[0], showTime) <= r
  {
    if |sections| == 0 then ""
    else
      var h := ConsoleSection(sections[0], showTime, show);
      assert ConsoleHeader(sections[0], showTime) <= h;
      h + Console(sections[1..], showTime, show)
  }

  /** The output of a report is the concatenation of its sections'. */
  lemma {:induction false} ConsoleAppend<T>(a: seq<Section<T>>, b: seq<Section<T>>, showTime: int -> string, show: T -> string)
    ensures Console(a + b, showTime, show) == Console(a, showTime, show) + Console(b, showTime, show)
    decreases |a|
  {
    if |a| == 0 {
      assert a + b == b;
    } else {
      assert (a + b)[0] == a[0];
      assert (a + b)[1..] == a[1..] + b;
      ConsoleAppend(a[1..], b, showTime, show);
    }
  }

  /** Section `k` is printed right after the sections before it: the output
      up to there is theirs, and section `k`'s header line starts there. */
  lemma ConsoleSectionAt<T>(sections: seq<Section<T>>, k: nat, showTime: int -> string, show: T -> string)
    requires k < |sections|
    ensures |Console(sections[..k], showTime, show)| <= |Console(sections, showTime, show)|
    ensures Console(sections, showTime, show)[..|Console(sections[..k], showTime, show)|] == Console(sections[..k], showTime, show)
    ensures ConsoleHeader(sections[k], showTime) <= Console(sections, showTime, show)[|Console(sections[..k], showTime, show)|..]
  {
    assert sections == sections[..k] + sections[k..];
    ConsoleAppend(sections[..k], sections[k..], showTime, show);
    assert sections[k..][0] == sections[k];
  }

  /** Nothing is printed exactly when there is no section. */
  lemma ConsoleEmptyIff<T>(sections: seq<Section<T>>, showTime: int -> string, show: T -> string)
    ensures Console(sections, showTime, show) == "" <==> sections == []
  {
    if |sections| > 0 {
      var h := ConsoleSection(sections[0], showTime, show);
      assert h[0] == '\n';
      assert |Console(sections, showTime, show)| >= |h| > 0;
    }
  }
}

=== FILE: report.dfy ===
/** The part of both report loops that follows the choice of timestamp
    pairs: read both snapshots, skip the pair if either is empty or nothing
    changed, otherwise emit one section with one block per change. The
    SQLite table is abstracted as a map from capture time to the rows of
    that capture, already ordered by rank. */
module Report {
  import opened Wrappers
  import opened Snapshot

  /** Capture time → rank-ordered rows. */
  type Store<T> = map<int, seq<Row<T>>>

  /** `get_data_for_timestamp`: a time with no rows selects the empty list. */
  function Lookup<T>(store: Store<T>, t: int): seq<Row<T>> {
    if t in store then store[t] else []
  }

  /** Rows in the order `ORDER BY rank` returns them. */
  predicate RankOrdered<T>(rows: seq<Row<T>>) {
    forall i, j :: 0 <= i < j < |rows| ==> rows[i].rank <= rows[j].rank
  }

  /** A store the table can produce: a time is a capture time only through
      the rows inserted under it, and each capture's rows come back in rank
      order. */
  predicate WellFormed<T>(store: Store<T>) {
    forall t :: t in store ==> |store[t]| > 0 && RankOrdered(store[t])
  }

  /** On a store the table can produce, a time selects rows iff it is a
      capture time, and the rows come in rank order. */
  lemma LookupSelects<T>(store: Store<T>, t: int)
    requires WellFormed(store)
    ensures |Lookup(store, t)| > 0 <==> t in store
    ensures RankOrdered(Lookup(store, t))
  {
  }

  /** The `before -> after` of one transition line. */
  datatype Transition<T> = Transition(before: Option<T>, after: Option<T>)

  /** One rendered change: the `Rank/Address` line, the optional `INS` and
      `OUTS` lines, and the wallet line. */
  datatype Block<T> = Block(
    rank: int,
    address: string,
    ins: Option<Transition<T>>,
    outs: Option<Transition<T>>,
    wallet: Option<string>)

  /** A section: the header naming both times, then the blocks. */
  datatype Section<T> = Section(from: int, to: int, blocks: seq<Block<T>>)

  /** One change record as rendered: a transition line is written only for
      a field whose two sides differ. */
  function BlockOf<T(==)>(c: Change<T>): Block<T> {
    Block(
      c.rank,
      c.address,
      if c.prevIns != c.currIns then Some(Transition(c.prevIns, c.currIns)) else None,
      if c.prevOuts != c.currOuts then Some(Transition(c.prevOuts, c.currOuts)) else None,
      c.wallet)
  }

  function BlocksOf<T(==)>(changes: seq<Change<T>>): seq<Block<T>> {
    seq(|changes|, k requires 0 <= k < |changes| => BlockOf(changes[k]))
  }

  /** The block of a change carries the `INS` line iff `ins` changed, the
      `OUTS` line iff `outs` changed, each with the two sides in order, and
      the record's rank, address and wallet. */
  predicate RendersChange<T(==)>(b: Block<T>, c: Change<T>) {
    && b.rank == c.rank && b.address == c.address && b.wallet == c.wallet
    && (b.ins.Some? <==> c.prevIns != c.currIns)
    && (b.outs.Some? <==> c.prevOuts != c.currOuts)
    && (b.ins.Some? ==> b.ins.value.before == c.prevIns && b.ins.value.after == c.currIns)
    && (b.outs.Some? ==> b.outs.value.before == c.prevOuts && b.outs.value.after == c.currOuts)
  }

  /** A pair is reported when both snapshots are non-empty and the diff is
      non-empty. */
  predicate Reportable<T(==)>(store: Store<T>, p: (int, int)) {
    && |Lookup(store, p.0)| > 0
    && |Lookup(store, p.1)| > 0
    && |CompareData(Lookup(store, p.0), Lookup(store, p.1))| > 0
  }

  /** Between two capture times of a store the table can produce, the
      `prev_data and curr_data` guard always passes: the pair is reported
      iff the diff is non-empty. */
  lemma CapturedPairReportable<T>(store: Store<T>, a: int, b: int)
    requires WellFormed(store) && a in store && b in store
    ensures Reportable(store, (a, b)) <==> |CompareData(Lookup(store, a), Lookup(store, b))| > 0
  {
    LookupSelects(store, a);
    LookupSelects(store, b);
  }

  function SectionFor<T(==)>(store: Store<T>, p: (int, int)): Section<T> {
    Section(p.0, p.1, BlocksOf(CompareData(Lookup(store, p.0), Lookup(store, p.1))))
  }

  /** The loop body shared by `generate_report` and lekerdezes `main`, over
      the pairs in the order the strategy produces them. */
  function ReportPairs<T(==)>(store: Store<T>, pairs: seq<(int, int)>): (r: seq<Section<T>>)
    ensures |r| <= |pairs|
    ensures forall k :: 0 <= k < |r| ==>
              && (r[k].from, r[k].to) in pairs
              && Reportable(store, (r[k].from, r[k].to))
              && r[k] == SectionFor(store, (r[k].from, r[k].to))
    ensures forall j :: 0 <= j < |pairs| && Reportable(store, pairs[j]) ==> SectionFor(store, pairs[j]) in r
    decreases |pairs|
  {
    if |pairs| == 0 then []
    else
      var rest := ReportPairs(store, pairs[1..]);
      if Reportable(store, pairs[0]) then [SectionFor(store, pairs[0])] + rest else rest
  }

  /** Every block of every reported section renders one genuine change: it
      has the `INS` line iff `ins` changed and the `OUTS` line iff `outs`
      changed, so at least one of the two lines is always present. */
  lemma ReportedBlocksShowChanges<T>(store: Store<T>, pairs: seq<(int, int)>)
    ensures forall s, b :: s in ReportPairs(store, pairs) && b in s.blocks ==>
              && (b.ins.Some? || b.outs.Some?)
              && exists c :: c in CompareData(Lookup(store, s.from), Lookup(store, s.to)) && RendersChange(b, c)
  {
    forall s, b | s in ReportPairs(store, pairs) && b in s.blocks
      ensures b.ins.Some? || b.outs.Some?
      ensures exists c :: c in CompareData(Lookup(store, s.from), Lookup(store, s.to)) && RendersChange(b, c)
    {
      var cs := CompareData(Lookup(store, s.from), Lookup(store, s.to));
      var k :| 0 <= k < |s.blocks| && s.blocks[k] == b;
      assert b == BlockOf(cs[k]);
      assert IsChange(cs[k]);
      assert cs[k] in cs && RendersChange(b, cs[k]);
    }
  }

  /** Sections appear in the order of their pairs: when the pairs' start
      times ascend, so do the sections'. */
  lemma {:induction false} ReportPairsOrdered<T>(store: Store<T>, pairs: seq<(int, int)>)
    requires forall i, j :: 0 <= i < j < |pairs| ==> pairs[i].0 < pairs[j].0
    ensures forall i, j :: 0 <= i < j < |ReportPairs(store, pairs)| ==>
              ReportPairs(store, pairs)[i].from < ReportPairs(store, pairs)[j].from
    decreases |pairs|
  {
    if |pairs| > 0 {
      var rest := ReportPairs(store, pairs[1..]);
      ReportPairsOrdered(store, pairs[1..]);
      forall k | 0 <= k < |rest| ensures pairs[0].0 < rest[k].from {
        var j :| 0 <= j < |pairs[1..]| && pairs[1..][j] == (rest[k].from, rest[k].to);
        assert pairs[1..][j] == pairs[j + 1];
      }
    }
  }

  /** The report reads the store only at the pairs' two ends. */
  lemma {:induction false} ReportPairsReadsOnlyEnds<T>(store: Store<T>, store': Store<T>, pairs: seq<(int, int)>)
    requires forall j :: 0 <= j < |pairs| ==>
               Lookup(store, pairs[j].0) == Lookup(store', pairs[j].0)
               && Lookup(store, pairs[j].1) == Lookup(store', pairs[j].1)
    ensures ReportPairs(store, pairs) == ReportPairs(store', pairs)
    decreases |pairs|
  {
    if |pairs| > 0 {
      assert forall j :: 0 <= j < |pairs[1..]| ==> pairs[1..][j] == pairs[j + 1];
      ReportPairsReadsOnlyEnds(store, store', pairs[1..]);
    }
  }

  /** One more pair appends at most that pair's section at the end. */
  lemma ReportPairsSnoc<T>(store: Store<T>, pairs: seq<(int, int)>, n: nat)
    requires n < |pairs|
    ensures ReportPairs(store, pairs[..n + 1])
         == ReportPairs(store, pairs[..n])
          + (if Reportable(store, pairs[n]) then [SectionFor(store, pairs[n])] else [])
  {
    assert pairs[..n + 1] == pairs[..n] + [pairs[n]];
    ReportPairsAppend(store, pairs[..n], [pairs[n]]);
    assert [pairs[n]][1..] == [];
  }

  /** Splitting the pairs splits the report. */
  lemma {:induction false} ReportPairsAppend<T>(store: Store<T>, a: seq<(int, int)>, b: seq<(int, int)>)
    ensures ReportPairs(store, a + b) == ReportPairs(store, a) + ReportPairs(store, b)
    decreases |a|
  {
    if |a| == 0 {
      assert a + b == b;
    } else {
      assert (a + b)[0] == a[0];
      assert (a + b)[1..] == a[1..] + b;
      ReportPairsAppend(store, a[1..], b);
    }
  }

  /** The loop body of both reports for one pair: fetch both snapshots,
      compare them if both are non-empty, and write a section if anything
      changed. */
  method ReportPair<T(==)>(store: Store<T>, from: int, to: int) returns (written: seq<Section<T>>)
    ensures written == if Reportable(store, (from, to)) then [SectionFor(store, (from, to))] else []
  {
    written := [];
    var prevData := Lookup(store, from);
    var currData := Lookup(store, to);
    if |prevData| > 0 && |currData| > 0 {
      var changes := CompareDataLoop(prevData, currData);
      if |changes| > 0 {
        written := [Section(from, to, BlocksOf(changes))];
      }
    }
  }
}

=== FILE: scenarios.dfy ===
/** The model's result on concrete inputs, proved from the contracts: what
    the extractors and the report give for typical rich-list text. */
module Scenarios {
  import opened Wrappers
  import opened Chars
  import opened Snapshot
  import opened Report
  import opened Timeline
  import opened Adjacent
  import opened Render
  import opened Extractors
  import opened FilenameTimestamp

  // ---- SQlite_start.py extractors --------------------------------------

  /** `Ins:5` at the start gives 5. */
  lemma InsAtStart(s: string)
    requires |s| >= 6 && s[..4] == "Ins:" && s[4] == '5' && !IsDigit(s[5])
    ensures SearchNumber(s, "Ins:") == Some(5)
  {
    assert s[0..4] == "Ins:" && NumberAt(s, "Ins:", 0);
    assert FindNumber(s, "Ins:") == Some(0);
    assert RunEnd(s, 5, IsDigit) == 5;
    assert DigitGroup(s, "Ins:", 0) == "5";
    assert "5"[..0] == "" && DecimalValue("5") == 5;
  }

  lemma OutsExample(s: string)
    requires s == "Ins:5 Outs:3"
    ensures SearchNumber(s, "Outs:") == Some(3)
  {
    assert s[6..11] == "Outs:" && NumberAt(s, "Outs:", 6);
    forall q | 0 <= q < 6 ensures !NumberAt(s, "Outs:", q) {
      assert q + 5 <= |s| ==> s[q..q + 5][0] == s[q];
    }
    assert FindNumber(s, "Outs:") == Some(6);
    assert RunEnd(s, 12, IsDigit) == 12;
    assert DigitGroup(s, "Outs:", 6) == "3";
    assert "3"[..0] == "" && DecimalValue("3") == 3;
  }

  /** Both counts are found, each after its own marker. */
  lemma InsOutsBoth()
    ensures ExtractInsOuts("Ins:5 Outs:3") == (Some(5), Some(3))
  {
    var s := "Ins:5 Outs:3";
    assert s[..4] == "Ins:";
    InsAtStart(s);
    OutsExample(s);
  }

  /** A missing marker gives `None` for that count alone. */
  lemma InsOutsOnlyIns()
    ensures ExtractInsOuts("Ins:5") == (Some(5), None)
  {
    var s := "Ins:5";
    assert s[0..4] == "Ins:" && NumberAt(s, "Ins:", 0);
    assert FindNumber(s, "Ins:") == Some(0);
    assert RunEnd(s, 5, IsDigit) == 5;
    assert DigitGroup(s, "Ins:", 0) == "5";
    assert "5"[..0] == "" && DecimalValue("5") == 5;
    forall p | 0 <= p <= |s| ensures !NumberAt(s, "Outs:", p) {
    }
  }

  /** Where the scanner stands on `1,234.00 BTC`. */
  lemma BtcExampleRuns(s: string)
    requires s == "1,234.00 BTC"
    ensures RunEnd(s, 6, IsDigitOrComma) == 8 && RunEnd(s, 8, IsSpace) == 9
    ensures forall q :: 0 <= q < 5 ==> RunEnd(s, q, IsDigitOrComma) == 5
    ensures RunEnd(s, 5, IsSpace) == 5
  {
    assert RunEnd(s, 9, IsSpace) == 9;
    assert RunEnd(s, 8, IsDigitOrComma) == 8;
    assert RunEnd(s, 7, IsDigitOrComma) == 8;
    assert RunEnd(s, 5, IsDigitOrComma) == 5;
    assert RunEnd(s, 4, IsDigitOrComma) == 5;
    assert RunEnd(s, 3, IsDigitOrComma) == 5;
    assert RunEnd(s, 2, IsDigitOrComma) == 5;
    assert RunEnd(s, 1, IsDigitOrComma) == 5;
  }

  /** The leftmost BTC match in `1,234.00 BTC` starts after the point. */
  lemma BtcExampleMatch(s: string)
    requires s == "1,234.00 BTC"
    ensures FindBtc(s) == Some(6)
  {
    BtcExampleRuns(s);
    assert s[9..12] == "BTC";
    assert BtcAt(s, 6);
    assert !OccursAt(s, 5, "BTC") by { assert s[5..8][0] == '.'; }
    forall q | 0 <= q < 6 ensures !BtcAt(s, q) {
      if q < 5 {
        assert RunEnd(s, q, IsDigitOrComma) == 5;
      }
    }
  }

  /** The BTC pattern has no decimal point: the leftmost match starts after
      it, so `1,234.00 BTC` reads as 0. */
  lemma BtcStopsAtDecimalPoint()
    ensures ExtractBtcAmount("1,234.00 BTC") == Success(Some(0))
  {
    var s := "1,234.00 BTC";
    BtcExampleMatch(s);
    BtcExampleRuns(s);
    assert BtcGroup(s, 6) == s[6..8] == "00";
    ZeroesExample();
  }

  lemma ZeroesExample()
    ensures RemoveCommas("00") == "00" && DecimalValue("00") == 0
  {
    assert "00"[1..] == "0" && "0"[1..] == "" && "00"[..1] == "0" && "0"[..0] == "";
    assert RemoveCommas("0") == "0";
    assert DecimalValue("0") == 0;
  }

  /** No digits before `BTC` anywhere: no amount. */
  lemma BtcAbsent()
    ensures ExtractBtcAmount("no amount here") == Success(None)
  {
    var s := "no amount here";
    assert forall k :: 0 <= k < |s| ==> !IsDigitOrComma(s[k]);
    NoDigitsNoBtc(s);
  }

  lemma NoDigitsNoBtc(s: string)
    requires forall k :: 0 <= k < |s| ==> !IsDigitOrComma(s[k])
    ensures ExtractBtcAmount(s) == Success(None)
  {
    forall p | 0 <= p <= |s| ensures !BtcAt(s, p) {
    }
  }

  /** The USD match of `$1,234.56` captures `1,234`. */
  lemma UsdExampleGroup(s: string)
    requires s == "$1,234.56"
    ensures FindUsd(s) == Some(0) && UsdGroup(s, 0) == "1,234"
  {
    assert RunEnd(s, 1, IsSpace) == 1;
    assert UsdAt(s, 0);
    assert RunEnd(s, 6, IsDigitOrComma) == 6;
    assert RunEnd(s, 5, IsDigitOrComma) == 6;
    assert RunEnd(s, 4, IsDigitOrComma) == 6;
    assert RunEnd(s, 3, IsDigitOrComma) == 6;
    assert RunEnd(s, 2, IsDigitOrComma) == 6;
    assert RunEnd(s, 1, IsDigitOrComma) == 6;
  }

  lemma RemoveCommasTail()
    ensures RemoveCommas("234") == "234"
  {
    assert "234"[1..] == "34" && "34"[1..] == "4" && "4"[1..] == "";
    assert RemoveCommas("4") == "4";
    assert RemoveCommas("34") == "34";
  }

  lemma RemoveCommasExample()
    ensures RemoveCommas("1,234") == "1234"
  {
    RemoveCommasTail();
    assert "1,234"[1..] == ",234" && ",234"[1..] == "234";
    assert RemoveCommas(",234") == "234";
  }

  lemma DecimalValueExample()
    ensures DecimalValue("1234") == 1234
  {
    assert "1234"[..3] == "123" && "123"[..2] == "12" && "12"[..1] == "1" && "1"[..0] == "";
    assert DecimalValue("1") == 1;
    assert DecimalValue("12") == 12;
    assert DecimalValue("123") == 123;
  }

  /** The USD group stops at the decimal point. */
  lemma UsdWholeDollars()
    ensures ExtractUsdAmount("$1,234.56") == Success(Some(1234))
  {
    UsdExampleGroup("$1,234.56");
    RemoveCommasExample();
    DecimalValueExample();
  }

  lemma FilenameExampleName()
    ensures FilePrefix + "20240115_093000" + ".csv" == "bitcoin_rich_list_20240115_093000.csv"
  {
  }

  /** A file name main2.py writes yields its capture time in ISO form. */
  lemma FilenameExample()
    ensures ExtractTimestampFromFilename("bitcoin_rich_list_20240115_093000.csv")
            == Success(Some("2024-01-15T09:30:00"))
  {
    var dt := DateTime(2024, 1, 15, 9, 30, 0);
    FormatExample(dt);
    FilenameRoundTrip(dt);
    FilenameExampleName();
  }

  lemma FormatExample(dt: DateTime)
    requires dt == DateTime(2024, 1, 15, 9, 30, 0)
    ensures Valid(dt) && dt.year >= 1000
    ensures CompactFormat(dt) == "20240115_093000"
    ensures IsoFormat(dt) == "2024-01-15T09:30:00"
  {
    PadExamples();
  }

  lemma PadExamples()
    ensures Pad4(2024) == "2024"
    ensures Pad2(1) == "01" && Pad2(15) == "15"
    ensures Pad2(9) == "09" && Pad2(30) == "30" && Pad2(0) == "00"
  {
    assert Pad2(20) == "20" && Pad2(24) == "24";
  }

  // ---- the report ------------------------------------------------------

  /** Fewer than two captures give an empty report and an empty fragment. */
  lemma FewCapturesReportNothing<T>(store: Store<T>, showTime: int -> string, show: T -> string)
    requires |store.Keys| < 2
    ensures GenerateReport(store) == []
    ensures Html(GenerateReport(store), showTime, show) == ""
  {
    GenerateReportSize(store);
    HtmlEmptyIff(GenerateReport(store), showTime, show);
  }

  function R(rank: int, ins: int, outs: int): Row<int> {
    Row(rank, "addr", Some(ins), Some(outs), Some("w"))
  }

  /** Two captures where only rank 2's `ins` moves from 4 to 7: one section
      with one block, an `INS` line and no `OUTS` line. */
  lemma TwoCapturesOneChange()
    ensures GenerateReport(map[100 := [R(1, 1, 1), R(2, 4, 2), R(3, 3, 3)],
                               200 := [R(1, 1, 1), R(2, 7, 2), R(3, 3, 3)]])
            == [Section(100, 200, [Block(2, "addr", Some(Transition(Some(4), Some(7))), None, Some("w"))])]
  {
    var prev := [R(1, 1, 1), R(2, 4, 2), R(3, 3, 3)];
    var curr := [R(1, 1, 1), R(2, 7, 2), R(3, 3, 3)];
    var store := map[100 := prev, 200 := curr];
    assert store.Keys == {100, 200};
    var ts := SortedKeys(store.Keys);
    assert 100 in ts && 200 in ts;
    assert ts == [100, 200];
    assert AdjacentPairs(ts) == [(100, 200)];
    assert CompareData(prev[2..], curr[2..]) == [];
    assert CompareData(prev[1..], curr[1..]) == [ChangeOf(prev[1], curr[1])];
    assert CompareData(prev, curr) == [ChangeOf(prev[1], curr[1])];
    assert Reportable(store, (100, 200));
    assert ReportPairs(store, [(100, 200)]) == [SectionFor(store, (100, 200))];
    assert BlocksOf([ChangeOf(prev[1], curr[1])]) == [BlockOf(ChangeOf(prev[1], curr[1]))];
    assert GenerateReport(store) == ReportPairs(store, AdjacentPairs(ts));
  }
}

=== FILE: snapshot.dfy ===
/** Snapshot rows and the positional diff `compare_data`, which main.py and
    lekerdezes.py define identically. The type `T` of the `ins`/`outs`
    columns is a parameter: main.py stores them as TEXT, the CSV import as
    INTEGER, and either may be NULL. */
module Snapshot {
  import opened Wrappers

  /** One row as `get_data_for_timestamp` selects it:
      `rank, address, ins, outs, wallet_name`. */
  datatype Row<T> = Row(rank: int, address: string, ins: Option<T>, outs: Option<T>, wallet: Option<string>)

  /** One change record: identity and wallet from the later row, both
      snapshots' `ins` and `outs`. */
  datatype Change<T> = Change(
    rank: int,
    address: string,
    prevIns: Option<T>,
    currIns: Option<T>,
    prevOuts: Option<T>,
    currOuts: Option<T>,
    wallet: Option<string>)

  function Min(a: nat, b: nat): nat { if a <= b then a else b }

  /** The comparison guard: only `ins` and `outs` are looked at. */
  predicate Differs<T(==)>(prev: Row<T>, curr: Row<T>) {
    prev.ins != curr.ins || prev.outs != curr.outs
  }

  /** The record built for one differing pair. */
  function ChangeOf<T>(prev: Row<T>, curr: Row<T>): Change<T> {
    Change(curr.rank, curr.address, prev.ins, curr.ins, prev.outs, curr.outs, curr.wallet)
  }

  /** A change record whose two sides really differ. */
  predicate IsChange<T(==)>(c: Change<T>) {
    c.prevIns != c.currIns || c.prevOuts != c.currOuts
  }

  /** `compare_data`: walk `zip(prev, curr)` and keep a record for each pair
      whose `ins` or `outs` differ. */
  function CompareData<T(==)>(prev: seq<Row<T>>, curr: seq<Row<T>>): (r: seq<Change<T>>)
    ensures |r| <= Min(|prev|, |curr|)
    ensures forall k :: 0 <= k < |r| ==> IsChange(r[k])
    decreases |prev|
  {
    if |prev| == 0 || |curr| == 0 then []
    else
      var rest := CompareData(prev[1..], curr[1..]);
      if Differs(prev[0], curr[0]) then [ChangeOf(prev[0], curr[0])] + rest else rest
  }

  /** Reference definition: the positions below `n` whose pair differs, in
      ascending order, collected from the last position backwards. */
  function ChangedPositions<T(==)>(prev: seq<Row<T>>, curr: seq<Row<T>>, n: nat): (idx: seq<nat>)
    requires n <= Min(|prev|, |curr|)
    ensures forall k :: 0 <= k < |idx| ==> idx[k] < n
    ensures forall k, l :: 0 <= k < l < |idx| ==> idx[k] < idx[l]
    ensures forall i :: 0 <= i < n ==> (Differs(prev[i], curr[i]) <==> i in idx)
  {
    if n == 0 then []
    else
      var idx := ChangedPositions(prev, curr, n - 1);
      if Differs(prev[n - 1], curr[n - 1]) then idx + [n - 1] else idx
  }

  /** The records for a list of positions. */
  function ChangesAt<T>(prev: seq<Row<T>>, curr: seq<Row<T>>, idx: seq<nat>): (r: seq<Change<T>>)
    requires forall k :: 0 <= k < |idx| ==> idx[k] < |prev| && idx[k] < |curr|
  {
    seq(|idx|, k requires 0 <= k < |idx| => ChangeOf(prev[idx[k]], curr[idx[k]]))
  }

  /** Extending both lists by one paired row appends at most that pair's
      record at the end. */
  lemma {:induction false} CompareDataSnoc<T>(prev: seq<Row<T>>, curr: seq<Row<T>>, n: nat)
    requires n < Min(|prev|, |curr|)
    ensures CompareData(prev[..n + 1], curr[..n + 1])
         == CompareData(prev[..n], curr[..n])
          + (if Differs(prev[n], curr[n]) then [ChangeOf(prev[n], curr[n])] else [])
  {
    var tail := if Differs(prev[n], curr[n]) then [ChangeOf(prev[n], curr[n])] else [];
    if n == 0 {
      assert prev[..1][1..] == [] && curr[..1][1..] == [];
      assert prev[..1][0] == prev[0] && curr[..1][0] == curr[0];
    } else {
      CompareDataSnoc(prev[1..], curr[1..], n - 1);
      assert prev[..n + 1][1..] == prev[1..][..n];
      assert curr[..n + 1][1..] == curr[1..][..n];
      assert prev[..n][1..] == prev[1..][..n - 1];
      assert curr[..n][1..] == curr[1..][..n - 1];
      assert prev[1..][n - 1] == prev[n] && curr[1..][n - 1] == curr[n];
      var head := if Differs(prev[0], curr[0]) then [ChangeOf(prev[0], curr[0])] else [];
      assert CompareData(prev[..n + 1], curr[..n + 1]) == head + CompareData(prev[1..][..n], curr[1..][..n]);
      assert CompareData(prev[..n], curr[..n]) == head + CompareData(prev[1..][..n - 1], curr[1..][..n - 1]);
    }
  }

  /** Rows beyond the shorter list are ignored: `zip` truncates. */
  lemma {:induction false} CompareDataIgnoresTail<T>(prev: seq<Row<T>>, curr: seq<Row<T>>)
    ensures CompareData(prev, curr)
         == CompareData(prev[..Min(|prev|, |curr|)], curr[..Min(|prev|, |curr|)])
    decreases |prev|
  {
    var m := Min(|prev|, |curr|);
    if m > 0 {
      CompareDataIgnoresTail(prev[1..], curr[1..]);
      assert prev[..m][1..] == prev[1..][..m - 1];
      assert curr[..m][1..] == curr[1..][..m - 1];
      assert prev[..m][0] == prev[0] && curr[..m][0] == curr[0];
    }
  }

  /** The first `n` pairs yield exactly the records at the changed positions
      below `n`. */
  lemma {:induction false} ComparePrefixIsChangesAt<T>(prev: seq<Row<T>>, curr: seq<Row<T>>, n: nat)
    requires n <= Min(|prev|, |curr|)
    ensures CompareData(prev[..n], curr[..n]) == ChangesAt(prev, curr, ChangedPositions(prev, curr, n))
  {
    if n > 0 {
      ComparePrefixIsChangesAt(prev, curr, n - 1);
      CompareDataSnoc(prev, curr, n - 1);
    }
  }

  /** `compare_data` is the in-order filter of the zipped pairs: its records
      are exactly `ChangeOf(prev[i], curr[i])` for the positions `i` below
      `min(|prev|, |curr|)` where `ins` or `outs` differ, in ascending `i`. */
  lemma CompareDataSpec<T>(prev: seq<Row<T>>, curr: seq<Row<T>>)
    ensures CompareData(prev, curr)
         == ChangesAt(prev, curr, ChangedPositions(prev, curr, Min(|prev|, |curr|)))
  {
    CompareDataIgnoresTail(prev, curr);
    ComparePrefixIsChangesAt(prev, curr, Min(|prev|, |curr|));
  }

  /** A paired position yields a record iff its `ins` or `outs` differ; each
      record carries rank, address and wallet from `curr` and both sides'
      `ins`/`outs`. */
  lemma CompareDataMembership<T>(prev: seq<Row<T>>, curr: seq<Row<T>>, i: nat)
    requires i < Min(|prev|, |curr|)
    ensures Differs(prev[i], curr[i]) <==> ChangeOf(prev[i], curr[i]) in CompareData(prev, curr)
  {
    var idx := ChangedPositions(prev, curr, Min(|prev|, |curr|));
    CompareDataSpec(prev, curr);
    var r := CompareData(prev, curr);
    if Differs(prev[i], curr[i]) {
      var k :| 0 <= k < |idx| && idx[k] == i;
      assert r[k] == ChangeOf(prev[i], curr[i]);
    }
    assert IsChange(ChangeOf(prev[i], curr[i])) == Differs(prev[i], curr[i]);
  }

  /** The diff is empty exactly when the lists agree on `ins` and `outs` at
      every paired position. */
  lemma CompareDataEmptyIff<T>(prev: seq<Row<T>>, curr: seq<Row<T>>)
    ensures CompareData(prev, curr) == []
        <==> forall i :: 0 <= i < Min(|prev|, |curr|) ==> !Differs(prev[i], curr[i])
  {
    CompareDataSpec(prev, curr);
    var idx := ChangedPositions(prev, curr, Min(|prev|, |curr|));
    if |idx| > 0 {
      assert Differs(prev[idx[0]], curr[idx[0]]);
    }
  }

  /** Two lists that agree on `ins` and `outs` position by position. */
  predicate SameCounts<T(==)>(a: seq<Row<T>>, b: seq<Row<T>>) {
    |a| == |b| && forall i :: 0 <= i < |a| ==> a[i].ins == b[i].ins && a[i].outs == b[i].outs
  }

  /** Only `ins` and `outs` of the earlier snapshot are ever consulted: its
      ranks, addresses and wallet names may change freely without changing
      the diff. */
  lemma {:induction false} CompareDataIgnoresPrevIdentity<T>(prev: seq<Row<T>>, prev': seq<Row<T>>, curr: seq<Row<T>>)
    requires SameCounts(prev, prev')
    ensures CompareData(prev, curr) == CompareData(prev', curr)
    decreases |prev|
  {
    if |prev| > 0 && |curr| > 0 {
      assert SameCounts(prev[1..], prev'[1..]) by {
        forall i | 0 <= i < |prev| - 1
          ensures prev[1..][i].ins == prev'[1..][i].ins && prev[1..][i].outs == prev'[1..][i].outs
        {
          assert prev[1..][i] == prev[i + 1] && prev'[1..][i] == prev'[i + 1];
        }
      }
      CompareDataIgnoresPrevIdentity(prev[1..], prev'[1..], curr[1..]);
    }
  }

  /** The imperative loop of `compare_data`: append a record for each
      differing pair of `zip(prev_data, curr_data)`. */
  method CompareDataLoop<T(==)>(prev: seq<Row<T>>, curr: seq<Row<T>>) returns (changes: seq<Change<T>>)
    ensures changes == CompareData(prev, curr)
  {
    changes := [];
    var m := Min(|prev|, |curr|);
    var i := 0;
    while i < m
      invariant 0 <= i <= m
      invariant changes == CompareData(prev[..i], curr[..i])
    {
      CompareDataSnoc(prev, curr, i);
      if Differs(prev[i], curr[i]) {
        changes := changes + [ChangeOf(prev[i], curr[i])];
      }
      i := i + 1;
    }
    CompareDataIgnoresTail(prev, curr);
  }
}

=== FILE: timeline.dfy ===
/** Capture times of the store: the ascending list of distinct timestamps
    that `SELECT DISTINCT timestamp ... ORDER BY timestamp` returns, and the
    earliest and latest of them that `SELECT MIN(timestamp), MAX(timestamp)`
    returns. Times are whole seconds. */
module Timeline {

  predicate IsLeast(s: set<int>, m: int) {
    m in s && forall x :: x in s ==> m <= x
  }

  lemma PickElement(s: set<int>) returns (x: int)
    requires s != {}
    ensures x in s
  {
    if forall y :: y !in s {
      assert false;
    }
    x :| x in s;
  }

  lemma {:induction false} LeastExists(s: set<int>)
    requires s != {}
    ensures exists m :: IsLeast(s, m)
    decreases |s|
  {
    var x := PickElement(s);
    var rest := s - {x};
    if rest != {} {
      LeastExists(rest);
      var m' :| IsLeast(rest, m');
      var m := if x < m' then x else m';
      forall y | y in s ensures m <= y {
        if y != x {
          assert y in rest;
        }
      }
      assert IsLeast(s, m);
    } else {
      forall y | y in s ensures x <= y {
        assert y == x || y in rest;
      }
      assert IsLeast(s, x);
    }
  }

  /** The earliest time of a non-empty set of times. */
  function MinOf(s: set<int>): (m: int)
    requires s != {}
    ensures IsLeast(s, m)
  {
    LeastExists(s);
    var m :| IsLeast(s, m);
    m
  }

  predicate StrictlyAscending(ts: seq<int>) {
    forall i, j :: 0 <= i < j < |ts| ==> ts[i] < ts[j]
  }

  /** The elements of a finite set of times, each once, in ascending order. */
  function SortedKeys(s: set<int>): (ts: seq<int>)
    ensures |ts| == |s|
    ensures StrictlyAscending(ts)
    ensures forall t :: t in ts <==> t in s
    decreases |s|
  {
    if s == {} then []
    else
      var m := MinOf(s);
      [m] + SortedKeys(s - {m})
  }

  /** In a strictly ascending list, the position order is the time order. */
  lemma AscendingIndexOrder(ts: seq<int>, i: nat, j: nat)
    requires StrictlyAscending(ts)
    requires i < |ts| && j < |ts|
    ensures ts[i] < ts[j] <==> i < j
  {
  }
}

=== FILE: wrappers.dfy ===
/** Failure-compatible wrappers used throughout the model. */
module Wrappers {

  /** An optional value: Python's `None` or a present value. Equality of two
      `Option`s is exactly Python's `!=`/`==` on `None`-or-value. */
  datatype Option<+T> = None | Some(value: T)

  /** A computation that either yields a value or raises. */
  datatype Result<+R, +E> = Success(value: R) | Failure(error: E)

  /** The one exception the modelled code can raise on scraped text. */
  datatype PyError = ValueError
}
